=== FILE: README.md ===
# scroll_copy harvest core, modelled in Dafny

`scroll_copy` harvests the text of a virtualised, scrolling transcript panel.
It extracts the visible entries, appends them to a raw log, tracks which
lines are new in a seen-set, stops once a number of consecutive scrolls bring
nothing new, checkpoints a resumable run state, and retries transient driver
faults up to a bound. A finalize pass then de-duplicates the raw log into the
final artifact.

This project models that core as pure functions over immutable datatypes.
The browser is replaced by a sequence of driver outcomes: an extraction
either fails or returns a page snapshot, after which the raw-log append may
fail and the scroll may fail or report the new offset.

| file | module | models |
|---|---|---|
| `wrappers.dfy` | `Wrappers` | `Option` / `Result` |
| `lines.dfy` | `Lines` | distinct lines, no-duplicates, first index, the non-empty lines of a log |
| `dedup.dfy` | `Dedup` | `dedupe_exact` and `finalize_raw_to_final` |
| `records.dfy` | `Records` | JavaScript `trim`, the speaker-label duration strip, record serialization, both extraction shapes |
| `state.dfy` | `State` | the run-state schema, statuses, exit codes, and what a saved state gives back when loaded |
| `config.dfy` | `Config` | `effective_run_config` and `pick` |
| `harvest.dfy` | `Harvest` | start/resume, one loop iteration, retry handling, the collection loop |
| `command.dfy` | `Command` | `run_command` and `finalize_command` with their exit codes |

Where the program's documentation and its code disagree, the model
follows the code:

- Only Playwright timeouts and `RuntimeError` are retried inside the loop.
  Any other driver error escapes to the outer handler. The run is then
  marked `failed` and exits with `EXIT_UNEXPECTED`. It is not retried.
- A timeout while launching, navigating or waiting for the container also
  ends the run as `failed` with `EXIT_UNEXPECTED`. Only a container that
  matches nothing gives `EXIT_SELECTOR_ERROR`.
- An `OSError` while appending to the raw log ends the run with
  `EXIT_WRITE_ERROR` without saving the state. The state file keeps status
  `running`.
- Resuming from any checkpoint, including a terminal one, starts a new
  `running` state. So status moves only forward within one run, not across
  resumes.
- The schema `version` is written but never checked on load.
- An unsupported de-duplication mode is rejected by finalize with a
  `ValueError`. After a completed run, `run` maps it to `EXIT_UNEXPECTED`.
- A negative scroll interval or retry wait is accepted by the
  configuration, but `time.sleep` then raises `ValueError`. The loop's
  handler does not catch it. After a successful iteration, the batch is
  already appended. After a fault, the fault is already saved. The run then
  ends `failed` with `EXIT_UNEXPECTED`.
- `browser.close()` runs only after completion and after retries run out.
  If it raises, the catch-all handler saves a `failed` state after the
  `completed` or `interrupted` one and exits with `EXIT_UNEXPECTED`.
  Finalize then does not run.

## Model

| member | source | states |
|---|---|---|
| `Lines.NonEmpty` | scroll_copy.py:75 | the kept lines are exactly the non-empty input lines, none is empty, and their distinct set is the input's distinct non-empty set |
| `Lines.NonEmptyCounts` | scroll_copy.py:75 | every non-empty line is kept as many times as it occurs, and every empty line is dropped |
| `Lines.NonEmptyAppend` | scroll_copy.py:75 | filtering keeps order: the non-empty lines of two logs joined together are the first log's non-empty lines followed by the second's |
| `Dedup.Dedupe` | scroll_copy.py:52-59 | the output has no duplicates, holds exactly the lines of the input, and is never longer |
| `Dedup.DedupeExact` | scroll_copy.py:52-59 | the seen-set loop returns the reference de-duplication: no duplicates, same lines as the input |
| `Dedup.DedupeKeepsFirstOccurrenceOrder` | scroll_copy.py:52-59 | output lines appear in the order of their first occurrence in the input |
| `Dedup.DedupeIdempotent` | scroll_copy.py:52-59 | de-duplicating twice equals de-duplicating once |
| `Dedup.DedupeCount` | scroll_copy.py:52-59 | the output length is the number of distinct input lines |
| `Dedup.Finalize` | scroll_copy.py:75-84 | an unsupported mode is an error, and it is the only error; otherwise the artifact has no empty line and no duplicate, holds exactly the non-empty raw lines, and unique = its length <= total <= raw length |
| `Dedup.FinalizeCounts` | scroll_copy.py:75-84 | total is the number of non-empty raw lines, and unique is the number of distinct non-empty raw lines |
| `Dedup.FinalizeIdempotent` | scroll_copy.py:75-84 | finalizing the final artifact reproduces it, with both counts equal to its length |
| `Dedup.FinalizeScenario` | scroll_copy.py:75-84 | a log with a repeated pair of speaker lines and one empty line finalizes to the two lines, total 4, unique 2 |
| `Records.Trim` | scroll_copy.py:300-301 | the result is one contiguous piece of the input, and only white space is cut off before and after it; it has no white space at either end, and it is empty exactly when the input is all white space |
| `Records.TrimIdempotent` | scroll_copy.py:300-305 | trimming a trimmed label changes nothing |
| `Records.MatchAtIsPattern` | scroll_copy.py:305 | the greedy matcher accepts a position exactly when the duration regular expression, with backtracking, matches there |
| `Records.FirstMatch` | scroll_copy.py:305 | returns the leftmost matching position, or none when the pattern matches nowhere |
| `Records.SpeakerNameWithoutDuration` | scroll_copy.py:305 | a label on which the pattern matches nowhere is only trimmed |
| `Records.SpeakerNameCutsLeftmostDuration` | scroll_copy.py:305 | the leftmost match and everything after it are removed, and the rest is trimmed |
| `Records.SpeakerNameExampleHours` | scroll_copy.py:304-305 | the label "Jane Doe 1時間30分間45秒間" names the speaker "Jane Doe" |
| `Records.SpeakerNameExampleSeconds` | scroll_copy.py:304-305 | the label "Bob 5秒" names the speaker "Bob" |
| `Records.ToRecord` | scroll_copy.py:300-308 | an entry yields no record exactly when its text is blank; otherwise the text is the trimmed text, and a speaker is present exactly when the cleaned label is not empty |
| `Records.ParseSerialize` | scroll_copy.py:308 | splitting a serialized line at its first tab gives the record back, provided the speaker holds no tab and a text without a speaker holds none either |
| `Records.CollectAppend` | scroll_copy.py:283-285 | extraction works entry by entry: the lines of two concatenated entry lists are the concatenated lines |
| `Records.ExtractLines` | scroll_copy.py:277-317 | every line is the trimmed text of one line node (text-only mode) or the serialized record of one entry with text (default mode), and every node with non-blank text or entry with a record gives its line; no line is empty, and a batch has at most one line per node or entry |
| `Records.ExtractLinesAppend` | scroll_copy.py:277-317 | extraction keeps document order and repetitions: the batch of two pages joined together is the first page's batch followed by the second's |
| `Records.ExtractLinesOne` | scroll_copy.py:277-317 | a single node gives its trimmed text unless that is blank, and a single entry gives its serialized record unless its text is blank |
| `State.Code` | scroll_copy.py:15-20 | only success exits with 0, and every code is a multiple of ten from 0 to 50 |
| `State.CodeInjective` | scroll_copy.py:15-20 | distinct conditions exit with distinct codes |
| `Config.EffectiveRunConfig` | scroll_copy.py:153-212 | each configuration error (missing state file on resume, missing URL unless attaching, missing container, missing line selector) arises exactly under its condition, checked in program order; a resolved configuration takes its URL and container from the command line, or else from the saved state; its line selector comes from the command line or the saved state, and is the default when neither gives a non-empty one; the intervals, checkpoint interval and mode flags are copied from the arguments |
| `Harvest.ResumeKeepsTarget` | scroll_copy.py:160-196 | a resume that gives no URL, container or line selector resolves the URL, container and line selector the saved run used, without a configuration error |
| `Harvest.Resume` | scroll_copy.py:234-245 | the seen-set is the set of non-empty raw lines, unique = its size, total counts every raw line (empty ones too); loop count, idle count and run id are carried over when saved (the counters are 0 otherwise), and the scroll offset and last-new-line time stay those of the fresh base state |
| `Harvest.Start` | scroll_copy.py:225-247 | a started run keeps the loop invariant, with scroll offset 0 and no last-new-line time; a fresh run begins with an empty raw log, an empty seen-set and loop and idle counters at 0, and a resumed one with the log on disk |
| `Harvest.FreshRunIterates` | scroll_copy.py:225-274 | a fresh run with a positive idle threshold does not complete before its first iteration |
| `Harvest.ObserveBatch` | scroll_copy.py:319-323 | the seen-set grows by the batch's lines, and the count is the number of distinct batch lines not seen before |
| `Harvest.HandleFault` | scroll_copy.py:349-373 | a non-retryable fault ends the run failed; a retryable one raises the failure count by one, records it as the retry count and saves the state; the run then ends interrupted exactly when the count exceeds the retry limit, and otherwise ends failed with the unexpected-error code exactly when the retry wait is negative; run id, target and start time never change |
| `Harvest.Advance` | scroll_copy.py:319-347 | a successful iteration adds the batch to the seen-set and the raw log, adds its size to the total, and counts the loop; it resets the idle counter and stamps the last-new-line time exactly when new lines appeared, and clears the failures; the run stays active exactly when the scroll interval is not negative, and then saves exactly on the checkpoint cadence; otherwise it ends failed with the unexpected-error code, saving the failed state last |
| `Harvest.Step` | scroll_copy.py:274-373 | a successful iteration is the one described for Advance; a failed extraction or scroll goes to the fault handler, after the batch is appended in the scroll case; a failed append ends the run with a write error and changes nothing; the raw log and saved history only grow, and run id, target and start time never change |
| `Harvest.Complete` | scroll_copy.py:375-378 | the loop's normal end marks the state completed, saves it, and exits 0 |
| `Harvest.StepSettled` | scroll_copy.py:274-373 | an iteration keeps the loop invariant while the run stays active, or ends with an exit code that matches its status |
| `Harvest.DriveSettled` | scroll_copy.py:274-378 | along any outcome sequence the raw log and the saved history only grow, unique = the seen-set size = the distinct non-empty raw lines, status only moves forward, and completion happens only at the idle threshold |
| `Harvest.ZeroIterations` | scroll_copy.py:274-275 | a resumed idle counter that already meets the threshold completes the run without any iteration |
| `Harvest.FaultsWithinBudget` | scroll_copy.py:349-373 | with a retry wait that is not negative, consecutive retryable faults within the limit leave the run active, with the count recorded as the retry count |
| `Harvest.FaultsExhaustBudget` | scroll_copy.py:360-371 | the fault that takes the count past the limit ends the run interrupted with the retry-exceeded code, and no later outcome is consulted |
| `Harvest.RetryBound` | scroll_copy.py:346-371 | a driver that always fails gets exactly max(max_retries, 0) + 1 attempts, provided the retry wait is not negative whenever a retry happens |
| `Harvest.NegativeRetryWaitFails` | scroll_copy.py:349-406 | with a negative retry wait, the first retryable fault within the limit ends the run failed with exit 50 instead of retrying, and no later outcome is consulted |
| `Harvest.NegativeScrollIntervalFails` | scroll_copy.py:319-406 | with a negative scroll interval, the first successful iteration appends and counts its batch and then ends the run failed with exit 50, and no later outcome is consulted |
| `Harvest.IdleRunCompletes` | scroll_copy.py:331-335 | with a scroll interval that is not negative, iterations that find nothing new, as many as the remaining idle budget, complete the run with exit 0 and the seen-set unchanged, and no later outcome is consulted |
| `Harvest.ResumeRestores` | scroll_copy.py:234-245 | resuming from a saved state and its raw log rebuilds the same seen-set, counters and run id |
| `Harvest.StartIdempotent` | scroll_copy.py:234-247 | resuming twice from the same raw log gives the same run |
| `Harvest.UniqueCountMatchesFinalize` | scroll_copy.py:327-328 | the live unique-line counter equals the unique count finalize reports for the raw log |
| `Command.FailBeforeLoop` | scroll_copy.py:380-391 | a failure before the loop saves a failed state with the given error code and a retry count of 0 |
| `Command.FinishRun` | scroll_copy.py:408-420 | after completion the run exits 0 exactly when finalize is off, or the mode is supported and the write succeeds; an artifact is written exactly when finalize is on and the run exits 0, and it is the de-duplicated non-empty raw log |
| `Command.RunCommandSound` | scroll_copy.py:219-406 | the run exits 10 exactly on a configuration error, which saves nothing and leaves the raw log alone; when the browser closes normally, any other exit has saved the state, with the status only moving forward and agreeing with the exit (0 completed, 30 exactly when interrupted, 20 failed with container-not-found); a resumed raw log is only appended to |
| `Command.RunCommandCloseFault` | scroll_copy.py:366-406 | a failing browser close changes only runs that completed or ran out of retries: they exit 50, save one more state (the last one, marked failed with the unexpected-error code), keep the same raw log and write no final artifact; every other run is unchanged |
| `Command.RunCommandFinalArtifact` | scroll_copy.py:408-411 | a final artifact is written only on exit 0; it is the de-duplicated non-empty raw log, and it has as many lines as the last saved unique-line counter |
| `Command.RunCommandWritesArtifact` | scroll_copy.py:408-411 | a run with finalize on that exits 0 has written the final artifact |
| `Command.FinalizeCommand` | scroll_copy.py:423-437 | finalize exits 0 exactly when the mode is supported and the write succeeds, and only then writes the de-duplicated non-empty raw log |

## Left out

- The browser: launching, attaching over the debugging port, choosing the
  page, navigation, locating the container, waiting for it, the scroll
  calls, and closing. Setup is one of three outcomes. Closing either works
  or raises. Each loop attempt is an outcome value carrying a page
  snapshot.
- File and JSON I/O: `append_lines`, `read_lines`, `save_state`,
  `load_state`, and the temporary-file replace. The raw log is a sequence of
  lines. Each save appends the state to a history of saved states.
- A harvested text that contains a line break. `innerText` can keep inner
  line breaks, so such a text is written as several raw lines and splits on
  re-reading. The model treats each harvested text as one raw line.
- A failing `save_state` (an `OSError` at a checkpoint, in the fault
  handler, or at a terminal save). Only a failing raw-log append is
  modelled as a write fault. Partial writes are not modelled.
- Clock values and ids (`now_iso`, `utc_run_id`). They are parameters. Only
  `started_at` and `last_new_line_at` are kept; `updated_at` and error
  timestamps and messages are not.
- The waiting done by `time.sleep`. The model only decides whether the
  call raises, which a negative interval or wait does. The `OverflowError`
  for a value too large for the platform is not modelled.
- State.Snapshot: a save followed by a load is taken to give back the
  saved fields exactly. The JSON round trip is not proved. Harvest.Resume
  and Harvest.ResumeRestores state what a resumed run takes from it.
- Command.RunCommandSound: promises that the saved history ends as the exit
  code says only when the browser closes normally. A failing close turns a
  `completed` or `interrupted` history into one ending `failed`, which is
  not a forward move. Command.RunCommandCloseFault states that case.
- The file paths in the state, and `headless`, `timeout_ms`, `log_level` and
  `debug_port`. They only steer I/O and the browser.
- Non-string JSON values in a loaded state file. `int()` conversion of the
  saved counters is also left out. The loaded state holds optional strings
  and naturals.
- `int()` truncation of a fractional scroll offset. The offset is an
  integer.
- Harvest.Start: requires that a resumed run finds its state file. The
  configuration step has already checked this. The case where the file
  vanishes between the two reads is not modelled.
- `finalize_command`'s `FileNotFoundError` branch. `read_lines` returns an
  empty list for a missing raw log, so only the final write could raise it,
  and it is not modelled.
- `doctor_command`, `build_parser`, `main`, and the separate page-inspection
  tool. These are diagnostics and CLI plumbing.

=== FILE: command.dfy ===
/** The two commands that own the core: `run` (resolve the configuration,
    start or resume, set up the page, loop, finalize) and `finalize`, each
    mapped to its process exit code. */
module Command {
  import opened Wrappers
  import opened Lines
  import opened Dedup
  import opened State
  import opened Config
  import opened Harvest

  /** How attaching to the page before the loop turns out: ready, the
      container selector matches nothing, or launching, navigating or
      waiting for the container fails. */
  datatype Setup = Ready | ContainerMissing | SetupFailed

  /** Everything a `run` invocation depends on: the arguments, the state
      file and raw log found on disk, the fresh run id and clock reading,
      how the page setup goes, the driver outcomes of the loop, whether
      closing the browser after the loop fails, and whether writing the
      final artifact fails. */
  datatype Invocation = Invocation(
    args: Args,
    file: StateFile,
    rawOnDisk: seq<string>,
    runId: string,
    now: Stamp,
    setup: Setup,
    outcomes: seq<Outcome>,
    closeFails: bool,
    finalWriteFails: bool)

  /** What a `run` leaves behind: the exit code (None while the loop is
      still going when the outcomes run out), the history of saved states,
      the raw log, and the final artifact if one was written. */
  datatype CommandResult = CommandResult(
    exit: Option<ExitCode>,
    saved: seq<RunState>,
    raw: seq<string>,
    final: Option<seq<string>>)

  /** A failure before the loop: the state is marked failed with the given
      error code and saved. */
  function FailBeforeLoop(h: Harvest, code: ErrorCode, exit: ExitCode): (r: CommandResult)
    ensures r.exit == Some(exit) && r.raw == h.raw && r.final.None?
    ensures |r.saved| == |h.saved| + 1 && r.saved[..|h.saved|] == h.saved
    ensures r.saved[|r.saved| - 1].status == Failed
    ensures r.saved[|r.saved| - 1].lastError == Some(LastError(code, 0))
  {
    var s := h.state.(status := Failed, lastError := Some(LastError(code, 0)));
    CommandResult(Some(exit), h.saved + [s], h.raw, None)
  }

  /** After the loop has completed: finalize if asked to. An unsupported
      de-duplication mode is an unexpected error, a failing write of the
      final artifact a write error. */
  function FinishRun(cfg: RunConfig, h: Harvest, finalWriteFails: bool): (r: CommandResult)
    ensures r.saved == h.saved && r.raw == h.raw
    ensures r.final.Some? ==> r.exit == Some(ExitOk) && r.final.value == Dedupe(NonEmpty(h.raw))
    ensures r.final.Some? <==> cfg.doFinalize && r.exit == Some(ExitOk)
    ensures r.exit == Some(ExitOk) <==>
      !cfg.doFinalize || (cfg.dedupeMode == ExactMode && !finalWriteFails)
    ensures r.exit.Some? && r.exit.value in {ExitOk, ExitUnexpected, ExitWriteError}
  {
    if !cfg.doFinalize then CommandResult(Some(ExitOk), h.saved, h.raw, None)
    else
      match Finalize(h.raw, cfg.dedupeMode)
      case Err(_) => CommandResult(Some(ExitUnexpected), h.saved, h.raw, None)
      case Ok(f) =>
        if finalWriteFails then CommandResult(Some(ExitWriteError), h.saved, h.raw, None)
        else CommandResult(Some(ExitOk), h.saved, h.raw, Some(f.lines))
  }

  /** Whether the loop ended by closing the browser: on completion and on
      running out of retries. The other ends leave through an exception
      before the close. */
  predicate ClosesBrowser(d: Run)
  {
    d.Finished? && d.exit in {ExitOk, ExitRetryExceeded}
  }

  /** The result of a run once the loop has stopped or the outcomes have
      run out. A failing browser close is caught by the catch-all handler,
      which marks the state failed, and finalize does not run. */
  function AfterLoop(cfg: RunConfig, d: Run, closeFails: bool, finalWriteFails: bool): CommandResult
  {
    match d
    case Active(h) => CommandResult(None, h.saved, h.raw, None)
    case Finished(h, exit) =>
      if closeFails && ClosesBrowser(d) then
        var f := Fail(h);
        CommandResult(Some(f.exit), f.h.saved, f.h.raw, None)
      else if exit == ExitOk then FinishRun(cfg, h, finalWriteFails)
      else CommandResult(Some(exit), h.saved, h.raw, None)
  }

  /** The `run` command. */
  function RunCommand(inv: Invocation): CommandResult
  {
    match EffectiveRunConfig(inv.args, inv.file)
    case Err(_) => CommandResult(Some(ExitConfigError), [], inv.rawOnDisk, None)
    case Ok(cfg) =>
      var h := Start(cfg, inv.file, inv.rawOnDisk, inv.runId, inv.now);
      match inv.setup
      case ContainerMissing => FailBeforeLoop(h, ContainerNotFound, ExitSelectorError)
      case SetupFailed => FailBeforeLoop(h, UnexpectedError, ExitUnexpected)
      case Ready => AfterLoop(cfg, Drive(cfg, h, inv.outcomes), inv.closeFails, inv.finalWriteFails)
  }

  /** The status the state file holds at the end, if it was written. */
  function LastStatus(r: CommandResult): Option<Status>
  {
    if |r.saved| == 0 then None else Some(r.saved[|r.saved| - 1].status)
  }

  /** How the exit code of a `run` that got past configuration agrees
      with the state file: the status only moves forward, and each exit code
      leaves the status it belongs to. */
  predicate EndsAsSaved(r: CommandResult)
  {
    && Forward(r.saved)
    && |r.saved| > 0
    && (r.exit.None? ==> LastStatus(r) == Some(Running))
    && (r.exit == Some(ExitOk) ==> LastStatus(r) == Some(Completed))
    && (r.exit == Some(ExitRetryExceeded) <==> LastStatus(r) == Some(Interrupted))
    && (r.exit == Some(ExitSelectorError) ==>
          LastStatus(r) == Some(Failed)
          && r.saved[|r.saved| - 1].lastError == Some(LastError(ContainerNotFound, 0)))
    && (r.exit == Some(ExitUnexpected) ==> LastStatus(r) in {Some(Failed), Some(Completed)})
    && (r.exit == Some(ExitWriteError) ==> LastStatus(r) in {Some(Running), Some(Completed)})
    && r.exit != Some(ExitConfigError)
  }

  /** A failure before the loop ends as saved. */
  lemma FailBeforeLoopSound(cfg: RunConfig, h: Harvest, code: ErrorCode, exit: ExitCode)
    requires Inv(cfg, h)
    requires exit == ExitSelectorError ==> code == ContainerNotFound
    requires exit in {ExitSelectorError, ExitUnexpected}
    ensures EndsAsSaved(FailBeforeLoop(h, code, exit))
  {
    var r := FailBeforeLoop(h, code, exit);
    assert r.saved == h.saved + [r.saved[|h.saved|]];
    ForwardAppend(h.saved, r.saved[|h.saved|]);
  }

  /** The loop and what follows it end as saved when the browser closes
      normally. */
  lemma AfterLoopSound(cfg: RunConfig, h: Harvest, d: Run, closeFails: bool, finalWriteFails: bool)
    requires Settled(cfg, h, d)
    ensures !closeFails ==> EndsAsSaved(AfterLoop(cfg, d, closeFails, finalWriteFails))
    ensures IsPrefix(h.raw, AfterLoop(cfg, d, closeFails, finalWriteFails).raw)
  {
  }

  /** How a result `bad` with a failing browser close relates to the
      result `ok` of the same run with a working close: a run that
      completed or ran out of retries gets one more saved state, a copy of
      the last one marked failed with the unexpected-error code, exits with
      that code and writes no final artifact; any other run is unchanged. */
  predicate FailsOnClose(ok: CommandResult, bad: CommandResult)
  {
    && (LastStatus(ok) in {Some(Completed), Some(Interrupted)} ==>
          && bad.exit == Some(ExitUnexpected) && bad.final.None? && bad.raw == ok.raw
          && bad.saved == ok.saved + [ok.saved[|ok.saved| - 1].(status := Failed,
               lastError := Some(LastError(UnexpectedError, 0)))])
    && (LastStatus(ok) !in {Some(Completed), Some(Interrupted)} ==> bad == ok)
  }

  /** A failing browser close changes only the runs that reach it: those
      that completed or ran out of retries. They end with the
      unexpected-error code, one more saved state (the last one, marked
      failed) and no final artifact. */
  lemma AfterLoopCloseFault(cfg: RunConfig, h: Harvest, d: Run, finalWriteFails: bool)
    requires Settled(cfg, h, d)
    ensures var ok := AfterLoop(cfg, d, false, finalWriteFails);
      var bad := AfterLoop(cfg, d, true, finalWriteFails);
      && (ClosesBrowser(d) <==> LastStatus(ok) in {Some(Completed), Some(Interrupted)})
      && (!ClosesBrowser(d) ==> bad == ok)
      && FailsOnClose(ok, bad)
  {
  }

  /** The `run` command's exit code tells how the run ended, and the state
      file agrees: nothing is saved on a configuration error, the status
      only moves forward, and each exit code leaves the status it belongs
      to. The raw log of a resumed run is only appended to. */
  lemma RunCommandSound(inv: Invocation)
    ensures var r := RunCommand(inv);
      && (r.exit == Some(ExitConfigError) <==> EffectiveRunConfig(inv.args, inv.file).Err?)
      && (r.exit == Some(ExitConfigError) ==> r.saved == [] && r.raw == inv.rawOnDisk)
      && (r.exit != Some(ExitConfigError) && !inv.closeFails ==> EndsAsSaved(r))
      && (inv.args.resume ==> IsPrefix(inv.rawOnDisk, r.raw))
  {
    match EffectiveRunConfig(inv.args, inv.file)
    case Err(_) =>
    case Ok(cfg) =>
      ConfiguredRunSound(inv, cfg);
  }

  /** A `run` that got past configuration: it never exits with the
      configuration code, it ends as saved when the browser closes
      normally, and it only appends to the raw log it started from. */
  lemma ConfiguredRunSound(inv: Invocation, cfg: RunConfig)
    requires EffectiveRunConfig(inv.args, inv.file) == Ok(cfg)
    ensures var r := RunCommand(inv);
      && r.exit != Some(ExitConfigError)
      && (!inv.closeFails ==> EndsAsSaved(r))
      && IsPrefix(Start(cfg, inv.file, inv.rawOnDisk, inv.runId, inv.now).raw, r.raw)
  {
    var h := Start(cfg, inv.file, inv.rawOnDisk, inv.runId, inv.now);
    match inv.setup
    case ContainerMissing =>
      FailBeforeLoopSound(cfg, h, ContainerNotFound, ExitSelectorError);
    case SetupFailed =>
      FailBeforeLoopSound(cfg, h, UnexpectedError, ExitUnexpected);
    case Ready =>
      DriveSettled(cfg, h, inv.outcomes);
      AfterLoopSound(cfg, h, Drive(cfg, h, inv.outcomes), inv.closeFails, inv.finalWriteFails);
  }

  /** A `run` whose browser close fails ends exactly like the same run with
      a working close, except when the loop completed or ran out of
      retries: then the completed or interrupted state is followed by a
      failed one, the exit code is the unexpected-error code, and no final
      artifact is written. */
  lemma RunCommandCloseFault(inv: Invocation)
    ensures FailsOnClose(RunCommand(inv.(closeFails := false)), RunCommand(inv.(closeFails := true)))
  {
    var okInv, badInv := inv.(closeFails := false), inv.(closeFails := true);
    match EffectiveRunConfig(inv.args, inv.file)
    case Err(_) =>
      assert RunCommand(okInv) == RunCommand(badInv);
    case Ok(cfg) =>
      ConfiguredCloseFault(inv, cfg);
  }

  /** The close fault of a `run` that got past configuration. */
  lemma ConfiguredCloseFault(inv: Invocation, cfg: RunConfig)
    requires EffectiveRunConfig(inv.args, inv.file) == Ok(cfg)
    ensures FailsOnClose(RunCommand(inv.(closeFails := false)), RunCommand(inv.(closeFails := true)))
  {
    var okInv, badInv := inv.(closeFails := false), inv.(closeFails := true);
    var h := Start(cfg, inv.file, inv.rawOnDisk, inv.runId, inv.now);
    if inv.setup.Ready? {
      var d := Drive(cfg, h, inv.outcomes);
      DriveSettled(cfg, h, inv.outcomes);
      AfterLoopCloseFault(cfg, h, d, inv.finalWriteFails);
      RunCommandReady(okInv, cfg);
      RunCommandReady(badInv, cfg);
    } else {
      assert RunCommand(okInv) == RunCommand(badInv);
    }
  }

  /** A configured `run` whose page is ready is its loop followed by what
      comes after it. */
  lemma RunCommandReady(inv: Invocation, cfg: RunConfig)
    requires EffectiveRunConfig(inv.args, inv.file) == Ok(cfg) && inv.setup.Ready?
    ensures RunCommand(inv) == AfterLoop(cfg,
      Drive(cfg, Start(cfg, inv.file, inv.rawOnDisk, inv.runId, inv.now), inv.outcomes),
      inv.closeFails, inv.finalWriteFails)
  {
  }


  /** The final artifact of a `run` lists each distinct non-empty raw line
      once, in order of first appearance, and has as many lines as the
      saved unique-line counter says. */
  lemma RunCommandFinalArtifact(inv: Invocation)
    ensures var r := RunCommand(inv);
      r.final.Some? ==>
        && r.exit == Some(ExitOk)
        && r.final.value == Dedupe(NonEmpty(r.raw))
        && |r.saved| > 0
        && |r.final.value| == r.saved[|r.saved| - 1].progress.uniqueLinesSeen
  {
    match EffectiveRunConfig(inv.args, inv.file)
    case Err(_) =>
    case Ok(cfg) =>
      var h := Start(cfg, inv.file, inv.rawOnDisk, inv.runId, inv.now);
      if inv.setup.Ready? {
        DriveSettled(cfg, h, inv.outcomes);
        AfterLoopFinal(cfg, h, Drive(cfg, h, inv.outcomes), inv.closeFails, inv.finalWriteFails);
      }
  }

  /** A `run` with finalize on that exits 0 has written the final
      artifact. */
  lemma RunCommandWritesArtifact(inv: Invocation)
    ensures var r := RunCommand(inv);
      r.exit == Some(ExitOk) && inv.args.doFinalize ==> r.final.Some?
  {
    match EffectiveRunConfig(inv.args, inv.file)
    case Err(_) =>
    case Ok(cfg) =>
      var h := Start(cfg, inv.file, inv.rawOnDisk, inv.runId, inv.now);
      if inv.setup.Ready? {
        DriveSettled(cfg, h, inv.outcomes);
        AfterLoopFinal(cfg, h, Drive(cfg, h, inv.outcomes), inv.closeFails, inv.finalWriteFails);
        RunCommandReady(inv, cfg);
      }
  }

  /** The final artifact written after the loop matches the saved counter,
      and it is written whenever the run exits 0 with finalize on. */
  lemma AfterLoopFinal(cfg: RunConfig, h: Harvest, d: Run, closeFails: bool, finalWriteFails: bool)
    requires Settled(cfg, h, d)
    ensures var r := AfterLoop(cfg, d, closeFails, finalWriteFails);
      && (r.final.Some? ==>
        && r.final.value == Dedupe(NonEmpty(r.raw))
        && |r.saved| > 0
        && |r.final.value| == r.saved[|r.saved| - 1].progress.uniqueLinesSeen)
      && (r.exit == Some(ExitOk) && cfg.doFinalize ==> r.final.Some?)
  {
    var r := AfterLoop(cfg, d, closeFails, finalWriteFails);
    if r.final.Some? {
      UniqueCountMatchesFinalize(d.h);
      FinalizeCounts(d.h.raw);
      DedupeCount(NonEmpty(d.h.raw));
    }
  }

  /** The `finalize` command: the final artifact is written unless the mode
      is unsupported (an unexpected error) or the write fails. */
  function FinalizeCommand(raw: seq<string>, mode: string, writeFails: bool): (r: (ExitCode, Option<seq<string>>))
    ensures r.0 == ExitOk <==> mode == ExactMode && !writeFails
    ensures mode != ExactMode ==> r.0 == ExitUnexpected
    ensures r.1.Some? <==> r.0 == ExitOk
    ensures r.1.Some? ==> r.1.value == Dedupe(NonEmpty(raw))
  {
    match Finalize(raw, mode)
    case Err(_) => (ExitUnexpected, None)
    case Ok(f) =>
      if writeFails then (ExitWriteError, None) else (ExitOk, Some(f.lines))
  }
}

=== FILE: config.dfy ===
/** Resolution of the run configuration from the command line and, on
    resume, from the saved state file. */
module Config {
  import opened Wrappers
  import opened State

  /** The command-line values the resolution reads. A None selector or URL
      is an option that was not given. */
  datatype Args = Args(
    url: Option<string>,
    container: Option<string>,
    lineSelector: Option<string>,
    resume: bool,
    maxIdleScrolls: int,
    scrollStep: int,
    scrollIntervalMs: int,
    checkpointInterval: int,
    maxRetries: int,
    retryWaitMs: int,
    dedupeMode: string,
    doFinalize: bool,
    connectExisting: bool,
    textOnly: bool,
    entrySelector: string,
    speakerSelector: string)

  datatype RunConfig = RunConfig(
    url: Option<string>,
    container: string,
    lineSelector: string,
    resume: bool,
    maxIdleScrolls: int,
    scrollStep: int,
    scrollIntervalMs: int,
    checkpointInterval: int,
    maxRetries: int,
    retryWaitMs: int,
    dedupeMode: string,
    doFinalize: bool,
    connectExisting: bool,
    textOnly: bool,
    entrySelector: string,
    speakerSelector: string)

  datatype ConfigError =
    | StateFileNotFound
    | StateFileUnreadable
    | UrlRequired
    | ContainerRequired
    | LineSelectorRequired

  /** The line selector used when none is given or saved. */
  const DefaultLineSelector: string := "[class^=\"entryText-\"]"

  datatype TargetField = UrlField | ContainerField | LineSelectorField

  /** Python truthiness of an optional string: present and not empty. */
  predicate Truthy(v: Option<string>)
  {
    v.Some? && v.value != ""
  }

  /** The saved target field, when a state file was loaded and holds it. */
  function SavedField(state: Option<StateDoc>, field: TargetField): Option<string>
  {
    if state.None? || state.value.target.None? then None
    else
      var t := state.value.target.value;
      match field
      case UrlField => t.url
      case ContainerField => t.containerSelector
      case LineSelectorField => t.lineSelector
  }

  /** A value given on the command line wins, even an empty one; otherwise
      the saved value, if any. */
  function Pick(cli: Option<string>, state: Option<StateDoc>, field: TargetField): (r: Option<string>)
    ensures cli.Some? ==> r == cli
    ensures cli.None? ==> r == SavedField(state, field)
    ensures cli.None? && state.None? ==> r.None?
  {
    if cli.Some? then cli else SavedField(state, field)
  }

  /** The state file contents the resolution reads: only on resume. */
  function Loaded(args: Args, file: StateFile): Option<StateDoc>
  {
    if args.resume && file.Present? then Some(file.doc) else None
  }

  /** The resolved configuration, or the first configuration error in the
      order the program checks them. */
  function EffectiveRunConfig(args: Args, file: StateFile): (r: Result<RunConfig, ConfigError>)
    ensures r == Err(StateFileNotFound) <==> args.resume && file.Missing?
    ensures r == Err(StateFileUnreadable) <==> args.resume && file.Unreadable?
    ensures var state := Loaded(args, file);
      r == Err(UrlRequired) <==>
        && (args.resume ==> file.Present?)
        && !args.connectExisting && !Truthy(Pick(args.url, state, UrlField))
    ensures var state := Loaded(args, file);
      r == Err(ContainerRequired) <==>
        && (args.resume ==> file.Present?)
        && (args.connectExisting || Truthy(Pick(args.url, state, UrlField)))
        && !Truthy(Pick(args.container, state, ContainerField))
    ensures var state := Loaded(args, file);
      r == Err(LineSelectorRequired) <==>
        && (args.resume ==> file.Present?)
        && (args.connectExisting || Truthy(Pick(args.url, state, UrlField)))
        && Truthy(Pick(args.container, state, ContainerField))
        && args.textOnly && !Truthy(Pick(args.lineSelector, state, LineSelectorField))
    ensures var state := Loaded(args, file);
      r.Ok? <==>
        && (args.resume ==> file.Present?)
        && (args.connectExisting || Truthy(Pick(args.url, state, UrlField)))
        && Truthy(Pick(args.container, state, ContainerField))
        && (args.textOnly ==> Truthy(Pick(args.lineSelector, state, LineSelectorField)))
    ensures r.Ok? ==> r.value.container != "" && r.value.lineSelector != ""
    ensures r.Ok? && !args.connectExisting ==> Truthy(r.value.url)
    ensures r.Ok? && args.container.Some? ==> r.value.container == args.container.value
    ensures r.Ok? && args.container.None? ==>
      args.resume && file.doc.target.Some?
      && file.doc.target.value.containerSelector == Some(r.value.container)
    ensures r.Ok? ==> r.value.url == Pick(args.url, Loaded(args, file), UrlField)
    ensures r.Ok? ==> Some(r.value.container) == Pick(args.container, Loaded(args, file), ContainerField)
    ensures var line := Pick(args.lineSelector, Loaded(args, file), LineSelectorField);
      r.Ok? ==> r.value.lineSelector == if Truthy(line) then line.value else DefaultLineSelector
    ensures r.Ok? && args.lineSelector.None? && SavedField(Loaded(args, file), LineSelectorField) == None ==>
      r.value.lineSelector == DefaultLineSelector
    ensures r.Ok? ==>
      && r.value.resume == args.resume && r.value.maxRetries == args.maxRetries
      && r.value.maxIdleScrolls == args.maxIdleScrolls && r.value.dedupeMode == args.dedupeMode
      && r.value.scrollIntervalMs == args.scrollIntervalMs && r.value.retryWaitMs == args.retryWaitMs
      && r.value.checkpointInterval == args.checkpointInterval && r.value.textOnly == args.textOnly
      && r.value.connectExisting == args.connectExisting && r.value.doFinalize == args.doFinalize
  {
    if args.resume && file.Missing? then Err(StateFileNotFound)
    else if args.resume && file.Unreadable? then Err(StateFileUnreadable)
    else
      var state := Loaded(args, file);
      var url := Pick(args.url, state, UrlField);
      var container := Pick(args.container, state, ContainerField);
      var lineSelector := Pick(args.lineSelector, state, LineSelectorField);
      if !args.connectExisting && !Truthy(url) then Err(UrlRequired)
      else if !Truthy(container) then Err(ContainerRequired)
      else if args.textOnly && !Truthy(lineSelector) then Err(LineSelectorRequired)
      else
        Ok(RunConfig(
          url,
          container.value,
          if Truthy(lineSelector) then lineSelector.value else DefaultLineSelector,
          args.resume,
          args.maxIdleScrolls,
          args.scrollStep,
          args.scrollIntervalMs,
          args.checkpointInterval,
          args.maxRetries,
          args.retryWaitMs,
          args.dedupeMode,
          args.doFinalize,
          args.connectExisting,
          args.textOnly,
          args.entrySelector,
          args.speakerSelector))
  }
}

=== FILE: dedup.dfy ===
/** Exact de-duplication of the raw log and the finalize pass that turns the
    raw log into the final artifact. */
module Dedup {
  import opened Wrappers
  import opened Lines

  /** The lines of `lines` in order of first appearance, each once. This is
      the reference definition: a line is kept exactly when no earlier line
      equals it. */
  function Dedupe(lines: seq<string>): (out: seq<string>)
    ensures NoDups(out)
    ensures forall x :: x in out <==> x in lines
    ensures |out| <= |lines|
    decreases |lines|
  {
    if |lines| == 0 then []
    else
      var prev := Dedupe(lines[..|lines| - 1]);
      var x := lines[|lines| - 1];
      assert lines == lines[..|lines| - 1] + [x];
      if x in prev then prev else prev + [x]
  }

  /** Dedupe keeps first-occurrence order: earlier output lines first appear
      earlier in the input. */
  lemma {:induction false} DedupeKeepsFirstOccurrenceOrder(lines: seq<string>)
    ensures forall i, j :: 0 <= i < j < |Dedupe(lines)| ==>
      FirstIndex(lines, Dedupe(lines)[i]) < FirstIndex(lines, Dedupe(lines)[j])
    decreases |lines|
  {
    if |lines| > 0 {
      var init := lines[..|lines| - 1];
      var x := lines[|lines| - 1];
      assert lines == init + [x];
      DedupeKeepsFirstOccurrenceOrder(init);
      var prev := Dedupe(init);
      var out := Dedupe(lines);
      forall y | y in prev
        ensures FirstIndex(lines, y) == FirstIndex(init, y)
      {
        FirstIndexAppend(init, [x], y);
      }
      if x !in prev {
        assert out == prev + [x];
        assert x !in init;
        assert FirstIndex(lines, x) == |init|;
        forall i, j | 0 <= i < j < |out|
          ensures FirstIndex(lines, out[i]) < FirstIndex(lines, out[j])
        {
          assert out[i] == prev[i] && prev[i] in prev;
          if j < |prev| {
            assert out[j] == prev[j] && prev[j] in prev;
          } else {
            assert FirstIndex(lines, out[i]) == FirstIndex(init, out[i]) < |init|;
          }
        }
      } else {
        assert out == prev;
      }
    }
  }

  /** A log without duplicates is its own de-duplication. */
  lemma {:induction false} DedupeOfNoDups(lines: seq<string>)
    requires NoDups(lines)
    ensures Dedupe(lines) == lines
    decreases |lines|
  {
    if |lines| > 0 {
      var init := lines[..|lines| - 1];
      assert NoDups(init);
      DedupeOfNoDups(init);
      assert lines == init + [lines[|lines| - 1]];
    }
  }

  /** Applying Dedupe twice gives the same result as applying it once. */
  lemma DedupeIdempotent(lines: seq<string>)
    ensures Dedupe(Dedupe(lines)) == Dedupe(lines)
  {
    DedupeOfNoDups(Dedupe(lines));
  }

  /** The number of lines Dedupe keeps is the number of distinct lines. */
  lemma DedupeCount(lines: seq<string>)
    ensures |Dedupe(lines)| == |Distinct(lines)|
  {
    var out := Dedupe(lines);
    NoDupsCardinality(out);
    assert Distinct(out) == Distinct(lines);
  }

  /** The imperative de-duplication loop: a seen-set and an output list, a
      line is emitted the first time it is met. */
  method DedupeExact(lines: seq<string>) returns (out: seq<string>)
    ensures out == Dedupe(lines)
    ensures NoDups(out)
    ensures forall x :: x in out <==> x in lines
  {
    var seen: set<string> := {};
    out := [];
    var i := 0;
    while i < |lines|
      invariant 0 <= i <= |lines|
      invariant out == Dedupe(lines[..i])
      invariant seen == Distinct(out)
    {
      var ln := lines[i];
      assert lines[..i + 1] == lines[..i] + [ln];
      if ln !in seen {
        seen := seen + {ln};
        out := out + [ln];
      }
      i := i + 1;
    }
    assert lines[..|lines|] == lines;
  }

  /** What finalize produces: the final artifact's lines and the two counts
      it reports. */
  datatype Finalized = Finalized(lines: seq<string>, total: nat, unique: nat)

  datatype FinalizeError = UnsupportedDedupeMode(mode: string)

  /** The only de-duplication mode the finalize pass accepts. */
  const ExactMode: string := "exact"

  /** The finalize pass over the raw log: empty lines are dropped, the mode is
      checked (nothing is written on an unsupported mode), the remaining lines
      are de-duplicated in first-occurrence order, and the number of non-empty
      and of unique lines is reported. */
  function Finalize(raw: seq<string>, mode: string): (r: Result<Finalized, FinalizeError>)
    ensures mode != ExactMode <==> r == Err(UnsupportedDedupeMode(mode))
    ensures r.Ok? ==> AllNonEmpty(r.value.lines) && NoDups(r.value.lines)
    ensures r.Ok? ==> forall x :: x in r.value.lines <==> x in raw && x != ""
    ensures r.Ok? ==> r.value.unique == |r.value.lines| <= r.value.total <= |raw|
  {
    var lines := NonEmpty(raw);
    if mode != ExactMode then Err(UnsupportedDedupeMode(mode))
    else
      var deduped := Dedupe(lines);
      assert forall i :: 0 <= i < |deduped| ==> deduped[i] in lines;
      Ok(Finalized(deduped, |lines|, |deduped|))
  }

  /** Finalize reports as unique count the number of distinct non-empty raw
      lines, and as total the number of non-empty raw lines. */
  lemma FinalizeCounts(raw: seq<string>)
    ensures Finalize(raw, ExactMode).Ok?
    ensures Finalize(raw, ExactMode).value.unique == |NonEmptySet(raw)|
    ensures Finalize(raw, ExactMode).value.total == |NonEmpty(raw)|
  {
    DedupeCount(NonEmpty(raw));
  }

  /** Finalize is idempotent: finalizing the final artifact reproduces it,
      with both counts equal to its length. */
  lemma FinalizeIdempotent(raw: seq<string>)
    requires Finalize(raw, ExactMode).Ok?
    ensures var f := Finalize(raw, ExactMode).value;
      Finalize(f.lines, ExactMode) == Ok(Finalized(f.lines, |f.lines|, |f.lines|))
  {
    var f := Finalize(raw, ExactMode).value;
    NonEmptyOfNonEmpty(f.lines);
    DedupeOfNoDups(f.lines);
  }

  /** Dropping empty lines from a log that has none changes nothing. */
  lemma {:induction false} NonEmptyOfNonEmpty(s: seq<string>)
    requires AllNonEmpty(s)
    ensures NonEmpty(s) == s
    decreases |s|
  {
    if |s| > 0 {
      NonEmptyOfNonEmpty(s[..|s| - 1]);
      assert s == s[..|s| - 1] + [s[|s| - 1]];
    }
  }

  /** The end-to-end scenario for finalize: a raw log with a repeated pair
      of speaker lines and one empty line. */
  lemma FinalizeScenario()
    ensures Finalize(["A\tHello", "B\tWorld", "A\tHello", "", "B\tWorld"], ExactMode)
      == Ok(Finalized(["A\tHello", "B\tWorld"], 4, 2))
  {
    ScenarioNonEmpty("A\tHello", "B\tWorld");
    ScenarioDedupe();
  }

  /** Dropping empty lines from the scenario's shape of raw log. */
  lemma ScenarioNonEmpty(a: string, b: string)
    requires a != "" && b != ""
    ensures NonEmpty([a, b, a, "", b]) == [a, b, a, b]
  {
    var head := [a, b, a];
    assert AllNonEmpty(head);
    NonEmptyOfNonEmpty(head);
    NonEmptyOne("");
    NonEmptyOne(b);
    NonEmptyAppend(head, [""]);
    assert head + [""] == [a, b, a, ""];
    NonEmptyAppend(head + [""], [b]);
    assert head + [""] + [b] == [a, b, a, "", b];
  }

  lemma ScenarioDedupe()
    ensures Dedupe(["A\tHello", "B\tWorld", "A\tHello", "B\tWorld"])
      == ["A\tHello", "B\tWorld"]
  {
    var ne := ["A\tHello", "B\tWorld", "A\tHello", "B\tWorld"];
    assert ne[..1] == ["A\tHello"];
    assert Dedupe(ne[..1]) == ["A\tHello"];
    assert ne[..2][..1] == ne[..1];
    assert Dedupe(ne[..2]) == ["A\tHello", "B\tWorld"];
    assert ne[..3][..2] == ne[..2];
    assert Dedupe(ne[..3]) == ["A\tHello", "B\tWorld"];
    assert ne[..|ne| - 1] == ne[..3];
  }
}

=== FILE: harvest.dfy ===
/** The scroll-harvest loop as a state machine: starting or resuming a run,
    one loop iteration against a driver outcome, retry handling, and the loop
    that runs until the idle threshold is reached or the run ends otherwise. */
module Harvest {
  import opened Wrappers
  import opened Lines
  import opened Dedup
  import opened Records
  import opened State
  import opened Config

  /** Everything one run owns: the state (what is saved), the seen-set, the
      raw log as it stands on disk, the consecutive-failure counter, and the
      history of states saved so far (the last one is what the state file
      holds). */
  datatype Harvest = Harvest(
    state: RunState,
    seen: set<string>,
    raw: seq<string>,
    failures: nat,
    saved: seq<RunState>)

  /** A run is either still looping or has ended with an exit code. */
  datatype Run = Active(h: Harvest) | Finished(h: Harvest, exit: ExitCode)

  /** How a driver call can fail: a timeout and a runtime error are retried;
      any other error ends the run as failed. */
  datatype Fault = Timeout | RuntimeFault | OtherFault

  predicate Retryable(f: Fault)
  {
    f == Timeout || f == RuntimeFault
  }

  /** What the driver does after the batch is appended: the scroll and the
      read-back of the offset either fail or report the new offset. */
  datatype ScrollResult = ScrollFailed(fault: Fault) | Scrolled(scrollTop: int)

  /** One attempt at a loop iteration as the outside world answers it:
      extraction fails, or it returns what the page shows (`at` is the clock
      reading), after which appending to the raw log may fail and the scroll
      may fail or succeed. */
  datatype Outcome =
    | ExtractFailed(fault: Fault)
    | Extracted(page: Page, at: Stamp, appendFails: bool, scroll: ScrollResult)

  function Max(a: int, b: int): int
  {
    if a >= b then a else b
  }

  /** The state a fresh run starts from. */
  function InitialState(cfg: RunConfig, runId: string, now: Stamp): (s: RunState)
    ensures s.status == Running && s.lastError.None? && s.version == SchemaVersion
    ensures s.progress == Progress(0, 0, 0, 0, 0, None)
    ensures s.target.containerSelector == cfg.container && s.runtime.maxRetries == cfg.maxRetries
  {
    RunState(
      SchemaVersion,
      runId,
      Running,
      Target(cfg.url, cfg.container, cfg.lineSelector),
      Progress(0, 0, 0, 0, 0, None),
      Runtime(cfg.maxIdleScrolls, cfg.scrollStep, cfg.scrollIntervalMs,
              cfg.maxRetries, cfg.retryWaitMs, cfg.dedupeMode),
      now,
      None)
  }

  /** The progress counters agree with the seen-set and the raw log. */
  predicate CountersAgree(h: Harvest)
  {
    && h.seen == NonEmptySet(h.raw)
    && h.state.progress.uniqueLinesSeen == |h.seen|
    && h.state.progress.totalLinesSeen == |h.raw|
  }

  /** What the run maintains while it loops. */
  predicate Inv(cfg: RunConfig, h: Harvest)
  {
    && h.state.status == Running
    && CountersAgree(h)
    && (h.failures == 0 <==> h.state.lastError.None?)
    && (h.state.lastError.Some? ==> h.state.lastError.value == LastError(LoopOperationFailed, h.failures))
    && (h.failures == 0 || h.failures <= cfg.maxRetries)
    && |h.saved| > 0
    && (forall i :: 0 <= i < |h.saved| ==> h.saved[i].status == Running)
  }

  /** Resuming: the seen-set is rebuilt from the non-empty raw lines, the
      total counts every raw line (empty ones too), the loop and idle
      counters and the run id and start time are carried over from the prior
      state, and the result is saved at once. */
  function Resume(base: RunState, prior: StateDoc, raw: seq<string>): (h: Harvest)
    requires base.status == Running && base.lastError.None?
    ensures h.seen == NonEmptySet(raw) && h.raw == raw
    ensures h.state.progress.uniqueLinesSeen == |h.seen|
    ensures h.state.progress.totalLinesSeen == |raw| >= |NonEmpty(raw)|
    ensures prior.runId.Some? ==> h.state.runId == prior.runId.value
    ensures prior.loopCount.Some? ==> h.state.progress.loopCount == prior.loopCount.value
    ensures prior.idleScrollCount.Some? ==> h.state.progress.idleScrollCount == prior.idleScrollCount.value
    ensures prior.loopCount.None? ==> h.state.progress.loopCount == 0
    ensures prior.idleScrollCount.None? ==> h.state.progress.idleScrollCount == 0
    ensures h.state.progress.scrollTop == base.progress.scrollTop
    ensures h.state.progress.lastNewLineAt == base.progress.lastNewLineAt
    ensures h.saved == [h.state]
  {
    var seen := NonEmptySet(raw);
    var p := base.progress.(
      uniqueLinesSeen := |seen|,
      totalLinesSeen := |raw|,
      loopCount := if prior.loopCount.Some? then prior.loopCount.value else 0,
      idleScrollCount := if prior.idleScrollCount.Some? then prior.idleScrollCount.value else 0);
    var s := base.(
      runId := if prior.runId.Some? then prior.runId.value else base.runId,
      progress := p,
      startedAt := if prior.startedAt.Some? then prior.startedAt.value else base.startedAt);
    Harvest(s, seen, raw, 0, [s])
  }

  /** Setting up a run: a fresh run deletes the raw log and starts from the
      initial state; a resumed run keeps the raw log and rebuilds from it.
      The starting state is saved before the browser is touched. */
  function Start(cfg: RunConfig, file: StateFile, rawOnDisk: seq<string>, runId: string, now: Stamp): (h: Harvest)
    requires cfg.resume ==> file.Present?
    ensures Inv(cfg, h)
    ensures cfg.resume ==> h.raw == rawOnDisk
    ensures !cfg.resume ==> h.raw == [] && h.state.progress.loopCount == 0
    ensures !cfg.resume ==> h.state.progress.idleScrollCount == 0 && h.seen == {}
    ensures h.state.progress.scrollTop == 0 && h.state.progress.lastNewLineAt.None?
  {
    var base := InitialState(cfg, runId, now);
    if cfg.resume then Resume(base, file.doc, rawOnDisk)
    else Harvest(base, {}, [], 0, [base])
  }

  /** The number of batch lines not seen before, the count the loop uses to
      decide whether an iteration was idle. */
  function NewUniqueCount(seen: set<string>, texts: seq<string>): nat
  {
    |Distinct(texts) - seen|
  }

  /** Adding a line not seen before, and not in the batch so far, counts
      it as new. */
  lemma AddNovel(seen: set<string>, d: set<string>, t: string)
    requires t !in seen && t !in d
    ensures (d + {t}) - seen == (d - seen) + {t}
    ensures |(d + {t}) - seen| == |d - seen| + 1
  {
    assert t !in d - seen;
  }

  /** Adding a line already seen, or already in the batch, counts nothing. */
  lemma AddKnown(seen: set<string>, d: set<string>, t: string)
    requires t in seen || t in d
    ensures (d + {t}) - seen == d - seen
  {
  }

  /** The seen-set grows by exactly the new lines. */
  lemma GrowsByNew(seen: set<string>, d: set<string>)
    ensures seen + d == seen + (d - seen)
    ensures |seen + d| == |seen| + |d - seen|
  {
    assert seen !! (d - seen);
  }

  /** The observation loop of one iteration: each batch line not yet in the
      seen-set is added to it and counted. */
  method ObserveBatch(seen: set<string>, texts: seq<string>) returns (seen': set<string>, count: nat)
    ensures seen' == seen + Distinct(texts)
    ensures count == NewUniqueCount(seen, texts)
    ensures count == |seen'| - |seen|
  {
    seen' := seen;
    count := 0;
    var i := 0;
    while i < |texts|
      invariant 0 <= i <= |texts|
      invariant seen' == seen + Distinct(texts[..i])
      invariant count == |Distinct(texts[..i]) - seen|
    {
      var t := texts[i];
      DistinctPrefixStep(texts, i);
      if t !in seen' {
        AddNovel(seen, Distinct(texts[..i]), t);
        seen' := seen' + {t};
        count := count + 1;
      } else {
        AddKnown(seen, Distinct(texts[..i]), t);
      }
      i := i + 1;
    }
    DistinctPrefixAll(texts);
    GrowsByNew(seen, Distinct(texts));
  }

  /** The parts of the state that identify a run and never change during
      it: version, run id, target, runtime parameters and start time. */
  predicate SameRun(a: RunState, b: RunState)
  {
    a.version == b.version && a.runId == b.runId && a.target == b.target
    && a.runtime == b.runtime && a.startedAt == b.startedAt
  }

  /** `time.sleep` rejects a negative length with a ValueError. Neither
      sleep in the loop is inside a handler that catches it, so it reaches
      the command's catch-all handler. */
  predicate SleepRaises(ms: int)
  {
    ms < 0
  }

  /** The command's catch-all handler for an unexpected error: the state is
      marked failed with an unexpected-error record and saved, and the run
      exits with the unexpected-error code. */
  function Fail(h: Harvest): (r: Run)
    ensures r.Finished? && r.exit == ExitUnexpected
    ensures r.h.state.status == Failed && r.h.state.lastError == Some(LastError(UnexpectedError, 0))
    ensures r.h.raw == h.raw && r.h.seen == h.seen && r.h.failures == h.failures
    ensures r.h.state.progress == h.state.progress && SameRun(h.state, r.h.state)
    ensures r.h.saved == h.saved + [r.h.state]
  {
    var s := h.state.(status := Failed, lastError := Some(LastError(UnexpectedError, 0)));
    Finished(h.(state := s, saved := h.saved + [s]), ExitUnexpected)
  }

  /** The fault handler: a non-retryable fault ends the run as failed; a
      retryable one is counted, recorded and saved, and once the count
      exceeds the retry limit the run is marked interrupted and saved.
      Otherwise the handler waits before the next attempt, and a negative
      wait ends the run as failed. */
  function HandleFault(cfg: RunConfig, h: Harvest, f: Fault): (r: Run)
    ensures r.h.raw == h.raw && r.h.seen == h.seen && r.h.state.progress == h.state.progress
    ensures SameRun(h.state, r.h.state)
    ensures !Retryable(f) ==> r.Finished? && r.exit == ExitUnexpected && r.h.state.status == Failed
    ensures Retryable(f) ==> r.h.failures == h.failures + 1
    ensures Retryable(f) ==>
      (r.Finished? <==> h.failures + 1 > cfg.maxRetries || SleepRaises(cfg.retryWaitMs))
    ensures Retryable(f) && h.failures + 1 > cfg.maxRetries ==>
      r.Finished? && r.exit == ExitRetryExceeded && r.h.state.status == Interrupted
      && r.h.state.lastError == Some(LastError(RetryExceeded, r.h.failures))
    ensures Retryable(f) && h.failures + 1 <= cfg.maxRetries && SleepRaises(cfg.retryWaitMs) ==>
      r.Finished? && r.exit == ExitUnexpected && r.h.state.status == Failed
      && |r.h.saved| == |h.saved| + 2
      && r.h.saved[|h.saved|].lastError == Some(LastError(LoopOperationFailed, r.h.failures))
    ensures r.Finished? && r.exit == ExitUnexpected ==>
      r.h.state.status == Failed && r.h.state.lastError == Some(LastError(UnexpectedError, 0))
    ensures r.Active? ==>
      && r.h.state.lastError == Some(LastError(LoopOperationFailed, r.h.failures))
      && r.h.state.status == h.state.status
    ensures IsPrefix(h.saved, r.h.saved) && |r.h.saved| > |h.saved|
    ensures r.h.saved[|r.h.saved| - 1] == r.h.state
  {
    if !Retryable(f) then Fail(h)
    else
      var n := h.failures + 1;
      var s := h.state.(lastError := Some(LastError(LoopOperationFailed, n)));
      if n > cfg.maxRetries then
        var s' := s.(status := Interrupted, lastError := Some(LastError(RetryExceeded, n)));
        Finished(h.(state := s', failures := n, saved := h.saved + [s, s']), ExitRetryExceeded)
      else
        var h' := h.(state := s, failures := n, saved := h.saved + [s]);
        if SleepRaises(cfg.retryWaitMs) then Fail(h') else Active(h')
  }

  /** The state after a batch has been observed, appended and counted. */
  function AfterBatch(h: Harvest, texts: seq<string>, at: Stamp): Harvest
  {
    var novel := NewUniqueCount(h.seen, texts);
    var p := h.state.progress;
    var seen := h.seen + Distinct(texts);
    var p' := p.(
      totalLinesSeen := p.totalLinesSeen + |texts|,
      uniqueLinesSeen := |seen|,
      loopCount := p.loopCount + 1,
      idleScrollCount := if novel > 0 then 0 else p.idleScrollCount + 1,
      lastNewLineAt := if novel > 0 then Some(at) else p.lastNewLineAt);
    h.(state := h.state.(progress := p'), seen := seen, raw := h.raw + texts)
  }

  /** The end of a successful iteration: the scroll offset is recorded,
      the last error cleared, the state saved if a checkpoint is due, and
      the failure counter reset. */
  function Scroll(cfg: RunConfig, after: Harvest, top: int): Harvest
  {
    var s := after.state.(progress := after.state.progress.(scrollTop := top), lastError := None);
    var saved := if CheckpointDue(cfg, s.progress.loopCount) then after.saved + [s] else after.saved;
    after.(state := s, failures := 0, saved := saved)
  }

  /** Whether a successful iteration ends on a checkpoint. */
  predicate CheckpointDue(cfg: RunConfig, loopCount: nat)
  {
    loopCount % Max(cfg.checkpointInterval, 1) == 0
  }

  /** The lines one outcome yields under the configured extraction mode. */
  function Batch(cfg: RunConfig, o: Outcome): seq<string>
    requires o.Extracted?
  {
    ExtractLines(cfg.textOnly, o.page)
  }

  /** Whether an outcome is a complete, successful iteration. */
  predicate Succeeds(cfg: RunConfig, o: Outcome)
  {
    o.Extracted? && !(o.appendFails && |Batch(cfg, o)| > 0) && o.scroll.Scrolled?
  }

  /** The rest of an iteration whose batch was appended and whose scroll
      succeeded: the batch is counted, the scroll offset recorded, the state
      saved on the checkpoint cadence, and then the loop waits the scroll
      interval, which fails the run when the interval is negative. */
  function Advance(cfg: RunConfig, h: Harvest, texts: seq<string>, at: Stamp, top: int): (r: Run)
    ensures IsPrefix(h.saved, r.h.saved) && SameRun(h.state, r.h.state)
    ensures r.Active? <==> !SleepRaises(cfg.scrollIntervalMs)
    ensures r.h.seen == h.seen + Distinct(texts)
    ensures r.h.raw == h.raw + texts
    ensures r.h.state.progress.totalLinesSeen == h.state.progress.totalLinesSeen + |texts|
    ensures r.h.state.progress.loopCount == h.state.progress.loopCount + 1
    ensures r.h.state.progress.uniqueLinesSeen == |r.h.seen|
    ensures r.h.state.progress.scrollTop == top
    ensures r.h.state.progress.lastNewLineAt ==
      if NewUniqueCount(h.seen, texts) > 0 then Some(at) else h.state.progress.lastNewLineAt
    ensures r.h.state.progress.idleScrollCount == 0 <==> NewUniqueCount(h.seen, texts) > 0
    ensures NewUniqueCount(h.seen, texts) == 0 ==>
      r.h.state.progress.idleScrollCount == h.state.progress.idleScrollCount + 1
    ensures r.h.failures == 0
    ensures r.Active? ==>
      && r.h.state.lastError.None?
      && (r.h.saved == h.saved + [r.h.state] <==> CheckpointDue(cfg, r.h.state.progress.loopCount))
      && (!CheckpointDue(cfg, r.h.state.progress.loopCount) ==> r.h.saved == h.saved)
    ensures r.Finished? ==>
      && r.exit == ExitUnexpected && r.h.state.status == Failed
      && r.h.state.lastError == Some(LastError(UnexpectedError, 0))
      && |r.h.saved| > 0 && r.h.saved[|r.h.saved| - 1] == r.h.state
  {
    var next := Scroll(cfg, AfterBatch(h, texts, at), top);
    if SleepRaises(cfg.scrollIntervalMs) then Fail(next) else Active(next)
  }

  /** One loop iteration. */
  function Step(cfg: RunConfig, h: Harvest, o: Outcome): (r: Run)
    ensures IsPrefix(h.raw, r.h.raw) && IsPrefix(h.saved, r.h.saved)
    ensures SameRun(h.state, r.h.state)
    ensures Succeeds(cfg, o) ==> r == Advance(cfg, h, Batch(cfg, o), o.at, o.scroll.scrollTop)
    ensures o.ExtractFailed? ==> r == HandleFault(cfg, h, o.fault)
    ensures o.Extracted? && o.appendFails && |Batch(cfg, o)| > 0 ==> r == Finished(h, ExitWriteError)
    ensures o.Extracted? && !(o.appendFails && |Batch(cfg, o)| > 0) && o.scroll.ScrollFailed? ==>
      var after := AfterBatch(h, Batch(cfg, o), o.at);
      r == HandleFault(cfg, after, o.scroll.fault)
  {
    match o
    case ExtractFailed(f) => HandleFault(cfg, h, f)
    case Extracted(page, at, appendFails, scroll) =>
      var texts := ExtractLines(cfg.textOnly, page);
      if appendFails && |texts| > 0 then Finished(h, ExitWriteError)
      else
        match scroll
        case ScrollFailed(f) => HandleFault(cfg, AfterBatch(h, texts, at), f)
        case Scrolled(top) => Advance(cfg, h, texts, at, top)
  }

  /** The loop's normal end: the state is marked completed and saved. */
  function Complete(h: Harvest): (r: Run)
    ensures r.Finished? && r.exit == ExitOk && r.h.state.status == Completed
    ensures r.h.raw == h.raw && r.h.seen == h.seen && r.h.state.progress == h.state.progress
    ensures r.h.saved == h.saved + [r.h.state]
  {
    var s := h.state.(status := Completed);
    Finished(h.(state := s, saved := h.saved + [s]), ExitOk)
  }

  /** The collection loop over a sequence of driver outcomes: before each
      iteration the idle counter is checked against the threshold. When the
      outcomes run out first, the run is still active. */
  function Drive(cfg: RunConfig, h: Harvest, os: seq<Outcome>): Run
    decreases |os|
  {
    if h.state.progress.idleScrollCount >= cfg.maxIdleScrolls then Complete(h)
    else if |os| == 0 then Active(h)
    else
      match Step(cfg, h, os[0])
      case Active(h') => Drive(cfg, h', os[1..])
      case Finished(h', exit) => Finished(h', exit)
  }

  // ---------------------------------------------------------------------
  // Properties of the loop.

  /** How a finished run's exit code and final status agree. */
  predicate EndsConsistently(r: Run)
    requires r.Finished?
  {
    match r.exit
    case ExitOk => r.h.state.status == Completed
    case ExitRetryExceeded =>
      r.h.state.status == Interrupted
      && r.h.state.lastError == Some(LastError(RetryExceeded, r.h.failures))
    case ExitUnexpected =>
      r.h.state.status == Failed && r.h.state.lastError == Some(LastError(UnexpectedError, 0))
    case ExitWriteError => r.h.state.status == Running
    case _ => false
  }

  /** A history of running states stays forward when any state is added. */
  lemma ForwardAppend(saved: seq<RunState>, s: RunState)
    requires forall i :: 0 <= i < |saved| ==> saved[i].status == Running
    ensures Forward(saved + [s])
  {
  }

  /** The batch appended by an iteration keeps the counters in agreement
      with the seen-set and the raw log. */
  lemma AfterBatchAgrees(h: Harvest, texts: seq<string>, at: Stamp)
    requires CountersAgree(h) && AllNonEmpty(texts)
    ensures CountersAgree(AfterBatch(h, texts, at))
  {
    NonEmptySetAppend(h.raw, texts);
  }

  /** What holds of a run `r` reached from a state `h` that kept the
      invariant: the raw log and the saved history only grew, the counters
      agree with the log, status only moved forward, an active run still
      keeps the invariant, and a finished run's exit code agrees with its
      status; the state file holds the final state unless a write failed. */
  predicate Settled(cfg: RunConfig, h: Harvest, r: Run)
  {
    && IsPrefix(h.raw, r.h.raw) && IsPrefix(h.saved, r.h.saved)
    && |r.h.saved| > 0
    && r.h.saved[|r.h.saved| - 1].status == r.h.state.status
    && CountersAgree(r.h)
    && Forward(r.h.saved)
    && (r.Active? ==> Inv(cfg, r.h))
    && (r.Finished? ==> EndsConsistently(r))
    && (r.Finished? && r.exit != ExitWriteError ==> r.h.saved[|r.h.saved| - 1] == r.h.state)
  }

  /** An active run keeps a history of running states, which is forward. */
  lemma InvForward(cfg: RunConfig, h: Harvest)
    requires Inv(cfg, h)
    ensures Forward(h.saved)
  {
  }

  /** Settled runs compose: going on from an active intermediate run. */
  lemma SettledTrans(cfg: RunConfig, h: Harvest, h1: Harvest, r: Run)
    requires Settled(cfg, h, Active(h1)) && Settled(cfg, h1, r)
    ensures Settled(cfg, h, r)
  {
    assert r.h.raw[..|h1.raw|][..|h.raw|] == r.h.raw[..|h.raw|];
    assert r.h.saved[..|h1.saved|][..|h.saved|] == r.h.saved[..|h.saved|];
  }

  /** The batch appended by an iteration keeps the invariant. */
  lemma AfterBatchInv(cfg: RunConfig, h: Harvest, texts: seq<string>, at: Stamp)
    requires Inv(cfg, h) && AllNonEmpty(texts)
    ensures Inv(cfg, AfterBatch(h, texts, at))
  {
    AfterBatchAgrees(h, texts, at);
  }

  /** The fault handler keeps the invariant or ends the run consistently. */
  lemma HandleFaultSettled(cfg: RunConfig, h: Harvest, f: Fault)
    requires Inv(cfg, h)
    ensures Settled(cfg, h, HandleFault(cfg, h, f))
  {
    var r := HandleFault(cfg, h, f);
    var n := |h.saved|;
    if Retryable(f) && r.Finished? {
      assert r.h.saved == h.saved + [r.h.saved[n]] + [r.h.state];
      ForwardAppend(h.saved + [r.h.saved[n]], r.h.state);
    } else {
      assert r.h.saved == h.saved + [r.h.state];
      ForwardAppend(h.saved, r.h.state);
    }
  }

  /** The catch-all handler ends a run that kept the invariant
      consistently. */
  lemma FailSettled(cfg: RunConfig, h: Harvest)
    requires Inv(cfg, h)
    ensures Settled(cfg, h, Fail(h))
  {
    ForwardAppend(h.saved, Fail(h).h.state);
  }

  /** A successful iteration keeps the invariant, or fails the run
      consistently when the scroll interval cannot be slept. */
  lemma AdvanceSettled(cfg: RunConfig, h: Harvest, texts: seq<string>, at: Stamp, top: int)
    requires Inv(cfg, h) && AllNonEmpty(texts)
    ensures Settled(cfg, h, Advance(cfg, h, texts, at, top))
  {
    AfterBatchInv(cfg, h, texts, at);
    var next := Scroll(cfg, AfterBatch(h, texts, at), top);
    assert Inv(cfg, next);
    InvForward(cfg, next);
    if SleepRaises(cfg.scrollIntervalMs) {
      assert Settled(cfg, h, Active(next));
      FailSettled(cfg, next);
      SettledTrans(cfg, h, next, Fail(next));
    }
  }

  /** A failed raw-log append ends the run with nothing changed. */
  lemma WriteFaultSettled(cfg: RunConfig, h: Harvest)
    requires Inv(cfg, h)
    ensures Settled(cfg, h, Finished(h, ExitWriteError))
  {
    InvForward(cfg, h);
  }

  /** A failed scroll after an appended batch is handled like any fault. */
  lemma ScrollFaultSettled(cfg: RunConfig, h: Harvest, texts: seq<string>, at: Stamp, f: Fault)
    requires Inv(cfg, h) && AllNonEmpty(texts)
    ensures Settled(cfg, h, HandleFault(cfg, AfterBatch(h, texts, at), f))
  {
    var after := AfterBatch(h, texts, at);
    AfterBatchInv(cfg, h, texts, at);
    InvForward(cfg, after);
    assert Settled(cfg, h, Active(after));
    HandleFaultSettled(cfg, after, f);
    SettledTrans(cfg, h, after, HandleFault(cfg, after, f));
  }

  /** One iteration keeps the loop invariant while the run stays active,
      and ends consistently when it does not. */
  lemma StepSettled(cfg: RunConfig, h: Harvest, o: Outcome)
    requires Inv(cfg, h)
    ensures Settled(cfg, h, Step(cfg, h, o))
    ensures Step(cfg, h, o).Finished? ==> Step(cfg, h, o).exit != ExitOk
  {
    match o
    case ExtractFailed(f) =>
      HandleFaultSettled(cfg, h, f);
    case Extracted(_, _, _, _) =>
      ExtractedSettled(cfg, h, o);
  }

  /** An iteration whose extraction succeeded keeps the loop invariant
      while the run stays active, and ends consistently when it does not. */
  lemma ExtractedSettled(cfg: RunConfig, h: Harvest, o: Outcome)
    requires Inv(cfg, h) && o.Extracted?
    ensures Settled(cfg, h, Step(cfg, h, o))
    ensures Step(cfg, h, o).Finished? ==> Step(cfg, h, o).exit != ExitOk
  {
    var texts := Batch(cfg, o);
    if o.appendFails && |texts| > 0 {
      WriteFaultSettled(cfg, h);
    } else if o.scroll.ScrollFailed? {
      ScrollFaultSettled(cfg, h, texts, o.at, o.scroll.fault);
    } else {
      AdvanceSettled(cfg, h, texts, o.at, o.scroll.scrollTop);
    }
  }

  /** The loop's normal end settles a run that kept the invariant. */
  lemma CompleteSettled(cfg: RunConfig, h: Harvest)
    requires Inv(cfg, h)
    ensures Settled(cfg, h, Complete(h))
  {
    ForwardAppend(h.saved, Complete(h).h.state);
  }

  /** A run that kept the invariant is settled with respect to itself. */
  lemma ActiveSettled(cfg: RunConfig, h: Harvest)
    requires Inv(cfg, h)
    ensures Settled(cfg, h, Active(h))
  {
    InvForward(cfg, h);
  }

  /** Every run of the loop from a state keeping the invariant is settled,
      and a run that completes does so only at the idle threshold. */
  lemma {:induction false} DriveSettled(cfg: RunConfig, h: Harvest, os: seq<Outcome>)
    requires Inv(cfg, h)
    ensures Settled(cfg, h, Drive(cfg, h, os))
    ensures var r := Drive(cfg, h, os);
      r.Finished? && r.exit == ExitOk ==> r.h.state.progress.idleScrollCount >= cfg.maxIdleScrolls
    decreases |os|
  {
    if h.state.progress.idleScrollCount >= cfg.maxIdleScrolls {
      CompleteSettled(cfg, h);
    } else if |os| > 0 {
      var s := Step(cfg, h, os[0]);
      StepSettled(cfg, h, os[0]);
      if s.Active? {
        DriveSettled(cfg, s.h, os[1..]);
        SettledTrans(cfg, h, s.h, Drive(cfg, s.h, os[1..]));
      } else {
        assert Drive(cfg, h, os) == s;
      }
    } else {
      ActiveSettled(cfg, h);
    }
  }

  /** When the idle counter already meets the threshold, no iteration runs
      and no outcome is consulted: the run completes at once. */
  lemma ZeroIterations(cfg: RunConfig, h: Harvest, os: seq<Outcome>)
    requires h.state.progress.idleScrollCount >= cfg.maxIdleScrolls
    ensures Drive(cfg, h, os) == Complete(h)
  {
  }

  /** A fresh run with a positive idle threshold does not complete before
      its first iteration: with no outcome to consult it is still active. */
  lemma FreshRunIterates(cfg: RunConfig, file: StateFile, rawOnDisk: seq<string>, runId: string, now: Stamp)
    requires !cfg.resume && cfg.maxIdleScrolls > 0
    ensures var h := Start(cfg, file, rawOnDisk, runId, now);
      Drive(cfg, h, []) == Active(h)
  {
  }

  /** `k` consecutive failed extractions of a retryable kind. */
  function Faults(k: nat, f: Fault): (os: seq<Outcome>)
    ensures |os| == k && forall i :: 0 <= i < k ==> os[i] == ExtractFailed(f)
  {
    seq(k, i => ExtractFailed(f))
  }

  /** Fewer retryable faults than the retry budget leave the run active,
      with the failures counted and recorded. */
  lemma {:induction false} FaultsWithinBudget(cfg: RunConfig, h: Harvest, k: nat, f: Fault)
    requires Retryable(f) && h.state.status == Running
    requires h.state.progress.idleScrollCount < cfg.maxIdleScrolls
    requires h.failures + k <= cfg.maxRetries
    requires k > 0 ==> !SleepRaises(cfg.retryWaitMs)
    ensures var r := Drive(cfg, h, Faults(k, f));
      && r.Active? && r.h.failures == h.failures + k
      && r.h.state.status == Running && r.h.raw == h.raw && r.h.seen == h.seen
      && (k > 0 ==> r.h.state.lastError == Some(LastError(LoopOperationFailed, h.failures + k)))
    decreases k
  {
    if k > 0 {
      var os := Faults(k, f);
      var r1 := Step(cfg, h, os[0]);
      assert r1.Active?;
      assert os[1..] == Faults(k - 1, f);
      FaultsWithinBudget(cfg, r1.h, k - 1, f);
    }
  }

  /** Once the consecutive failures reach one more than the retry limit the
      run ends interrupted with the retry-exceeded exit code, and no later
      outcome is consulted. */
  lemma {:induction false} FaultsExhaustBudget(cfg: RunConfig, h: Harvest, k: nat, f: Fault, rest: seq<Outcome>)
    requires Retryable(f) && h.state.status == Running
    requires h.state.progress.idleScrollCount < cfg.maxIdleScrolls
    requires k >= 1 && h.failures + k == Max(cfg.maxRetries, h.failures) + 1
    requires k > 1 ==> !SleepRaises(cfg.retryWaitMs)
    ensures var r := Drive(cfg, h, Faults(k, f) + rest);
      && r == Drive(cfg, h, Faults(k, f))
      && r.Finished? && r.exit == ExitRetryExceeded && r.h.state.status == Interrupted
      && r.h.failures == h.failures + k
    decreases k
  {
    var os := Faults(k, f) + rest;
    assert os[0] == ExtractFailed(f);
    assert Faults(k, f)[0] == ExtractFailed(f);
    if k > 1 {
      var r1 := Step(cfg, h, os[0]);
      assert r1.Active?;
      assert os[1..] == Faults(k - 1, f) + rest;
      assert Faults(k, f)[1..] == Faults(k - 1, f) + [];
      assert Faults(k - 1, f) + [] == Faults(k - 1, f);
      FaultsExhaustBudget(cfg, r1.h, k - 1, f, rest);
      FaultsExhaustBudget(cfg, r1.h, k - 1, f, []);
    }
  }

  /** A driver that keeps failing with a retryable fault is given exactly
      max(max_retries, 0) + 1 attempts from a clean failure count: one fewer
      leaves the run active, that many ends it as interrupted whatever
      follows. */
  lemma RetryBound(cfg: RunConfig, h: Harvest, f: Fault, rest: seq<Outcome>)
    requires Inv(cfg, h) && h.failures == 0 && Retryable(f)
    requires h.state.progress.idleScrollCount < cfg.maxIdleScrolls
    requires cfg.maxRetries > 0 ==> !SleepRaises(cfg.retryWaitMs)
    ensures var budget := Max(cfg.maxRetries, 0);
      && Drive(cfg, h, Faults(budget, f)).Active?
      && var r := Drive(cfg, h, Faults(budget + 1, f) + rest);
         r.Finished? && r.exit == ExitRetryExceeded && r.h.state.status == Interrupted
         && r.h.failures == budget + 1
  {
    var budget := Max(cfg.maxRetries, 0);
    if budget == 0 {
      assert Faults(0, f) == [];
    } else {
      FaultsWithinBudget(cfg, h, budget, f);
    }
    FaultsExhaustBudget(cfg, h, budget + 1, f, rest);
  }

  /** With a negative retry wait, the first retryable fault that stays
      within the retry limit fails the run with the unexpected-error code
      instead of retrying, and no later outcome is consulted. */
  lemma NegativeRetryWaitFails(cfg: RunConfig, h: Harvest, f: Fault, rest: seq<Outcome>)
    requires h.failures == 0 && Retryable(f)
    requires h.state.progress.idleScrollCount < cfg.maxIdleScrolls
    requires cfg.maxRetries > 0 && SleepRaises(cfg.retryWaitMs)
    ensures var r := Drive(cfg, h, [ExtractFailed(f)] + rest);
      && r.Finished? && r.exit == ExitUnexpected && r.h.state.status == Failed
      && r.h.raw == h.raw && r.h.failures == 1
  {
  }

  /** With a negative scroll interval, the first successful iteration still
      appends its batch, and then fails the run with the unexpected-error
      code; no later outcome is consulted. */
  lemma NegativeScrollIntervalFails(cfg: RunConfig, h: Harvest, o: Outcome, rest: seq<Outcome>)
    requires h.state.progress.idleScrollCount < cfg.maxIdleScrolls
    requires Succeeds(cfg, o) && SleepRaises(cfg.scrollIntervalMs)
    ensures var r := Drive(cfg, h, [o] + rest);
      && r.Finished? && r.exit == ExitUnexpected && r.h.state.status == Failed
      && r.h.raw == h.raw + Batch(cfg, o)
      && r.h.state.progress.loopCount == h.state.progress.loopCount + 1
  {
  }

  /** An iteration that succeeds but finds nothing new. */
  predicate IdleOutcome(cfg: RunConfig, seen: set<string>, o: Outcome)
  {
    Succeeds(cfg, o) && Distinct(Batch(cfg, o)) <= seen
  }

  /** Below the idle threshold, an iteration that leaves the run active is
      followed by the rest of the loop. */
  lemma DriveActiveStep(cfg: RunConfig, h: Harvest, os: seq<Outcome>)
    requires h.state.progress.idleScrollCount < cfg.maxIdleScrolls
    requires |os| > 0 && Step(cfg, h, os[0]).Active?
    ensures Drive(cfg, h, os) == Drive(cfg, Step(cfg, h, os[0]).h, os[1..])
  {
  }

  /** At the idle threshold the loop completes, whatever outcomes remain. */
  lemma DriveAtThreshold(cfg: RunConfig, h: Harvest, os: seq<Outcome>)
    requires h.state.progress.idleScrollCount >= cfg.maxIdleScrolls
    ensures Drive(cfg, h, os) == Complete(h)
  {
  }

  /** One idle iteration leaves the run active, the seen-set unchanged, and
      raises the idle counter by one. */
  lemma IdleStep(cfg: RunConfig, h: Harvest, o: Outcome)
    requires IdleOutcome(cfg, h.seen, o) && !SleepRaises(cfg.scrollIntervalMs)
    ensures var r := Step(cfg, h, o);
      && r.Active? && r.h.seen == h.seen
      && r.h.state.progress.idleScrollCount == h.state.progress.idleScrollCount + 1
  {
    var texts := Batch(cfg, o);
    var r := Advance(cfg, h, texts, o.at, o.scroll.scrollTop);
    assert Step(cfg, h, o) == r;
    assert NewUniqueCount(h.seen, texts) == 0 by {
      assert Distinct(texts) - h.seen == {};
    }
    assert r.h.seen == h.seen + Distinct(texts) == h.seen;
  }

  /** Idle termination: when the remaining idle budget is met by iterations
      that find nothing new, the run completes right after the last of them
      and no later outcome is consulted. */
  lemma {:induction false} IdleRunCompletes(cfg: RunConfig, h: Harvest, os: seq<Outcome>, rest: seq<Outcome>)
    requires h.state.progress.idleScrollCount + |os| == cfg.maxIdleScrolls
    requires forall i :: 0 <= i < |os| ==> IdleOutcome(cfg, h.seen, os[i])
    requires |os| > 0 ==> !SleepRaises(cfg.scrollIntervalMs)
    ensures var r := Drive(cfg, h, os + rest);
      && r == Drive(cfg, h, os)
      && r.Finished? && r.exit == ExitOk && r.h.state.status == Completed
      && r.h.seen == h.seen
    decreases |os|
  {
    if |os| > 0 {
      IdleStep(cfg, h, os[0]);
      var h1 := Step(cfg, h, os[0]).h;
      var tail := os[1..];
      forall i | 0 <= i < |tail|
        ensures IdleOutcome(cfg, h1.seen, tail[i])
      {
        assert tail[i] == os[i + 1];
      }
      HeadOfAppend(os, rest);
      IdleRunCompletes(cfg, h1, tail, rest);
      DriveActiveStep(cfg, h, os + rest);
      DriveActiveStep(cfg, h, os);
    } else {
      DriveAtThreshold(cfg, h, rest);
      DriveAtThreshold(cfg, h, os);
    }
  }

  /** Resuming without target options recovers the target from the saved
      state: the URL, container and line selector a run resolved are the
      ones the next resume resolves. */
  lemma ResumeKeepsTarget(cfg: RunConfig, s: RunState, args: Args)
    requires cfg.container != "" && cfg.lineSelector != ""
    requires s.target == Target(cfg.url, cfg.container, cfg.lineSelector)
    requires args.resume && args.url.None? && args.container.None? && args.lineSelector.None?
    requires args.connectExisting || Truthy(cfg.url)
    ensures var r := EffectiveRunConfig(args, Present(Snapshot(s)));
      && r.Ok?
      && r.value.url == cfg.url
      && r.value.container == cfg.container
      && r.value.lineSelector == cfg.lineSelector
  {
  }

  /** Resuming from the state a run saved, with the raw log it wrote,
      rebuilds the same seen-set and counters and keeps the run id, however
      often it is done. */
  lemma ResumeRestores(cfg: RunConfig, h: Harvest, base: RunState)
    requires CountersAgree(h)
    requires base.status == Running && base.lastError.None?
    ensures var h' := Resume(base, Snapshot(h.state), h.raw);
      && h'.seen == h.seen
      && h'.state.progress.uniqueLinesSeen == h.state.progress.uniqueLinesSeen
      && h'.state.progress.totalLinesSeen == h.state.progress.totalLinesSeen
      && h'.state.progress.loopCount == h.state.progress.loopCount
      && h'.state.progress.idleScrollCount == h.state.progress.idleScrollCount
      && h'.state.runId == h.state.runId
      && h'.state.startedAt == h.state.startedAt
  {
  }

  /** Starting a resumed run twice from the same raw log, the second time
      from the state the first start saved, gives the same run. */
  lemma StartIdempotent(cfg: RunConfig, file: StateFile, raw: seq<string>,
                        id1: string, id2: string, now1: Stamp, now2: Stamp)
    requires cfg.resume && file.Present?
    ensures var h1 := Start(cfg, file, raw, id1, now1);
      Start(cfg, Present(Snapshot(h1.state)), raw, id2, now2) == h1
  {
  }

  /** The live unique count is what finalize reports for the raw log. */
  lemma UniqueCountMatchesFinalize(h: Harvest)
    requires CountersAgree(h)
    ensures Finalize(h.raw, ExactMode).Ok?
    ensures Finalize(h.raw, ExactMode).value.unique == h.state.progress.uniqueLinesSeen
    ensures Finalize(h.raw, ExactMode).value.total <= h.state.progress.totalLinesSeen
  {
    FinalizeCounts(h.raw);
  }
}

=== FILE: lines.dfy ===
/** Facts about sequences of lines: the set of distinct lines, the absence of
    duplicates, the first position of a line, and the non-empty lines of a log. */
module Lines {

  /** The distinct lines of `s`, order forgotten. */
  function Distinct(s: seq<string>): set<string>
  {
    set x | x in s
  }

  /** The distinct non-empty lines of `s`. */
  function NonEmptySet(s: seq<string>): set<string>
  {
    set x | x in s && x != ""
  }

  predicate NoDups(s: seq<string>)
  {
    forall i, j :: 0 <= i < j < |s| ==> s[i] != s[j]
  }

  predicate AllNonEmpty(s: seq<string>)
  {
    forall i :: 0 <= i < |s| ==> s[i] != ""
  }

  /** `a` is a prefix of `b`: what an append-only log satisfies over time. */
  predicate IsPrefix<T(==)>(a: seq<T>, b: seq<T>)
  {
    |a| <= |b| && b[..|a|] == a
  }

  /** The distinct lines of a prefix grow by one line at each step. */
  lemma DistinctPrefixStep(s: seq<string>, i: nat)
    requires i < |s|
    ensures Distinct(s[..i + 1]) == Distinct(s[..i]) + {s[i]}
  {
    assert s[..i + 1] == s[..i] + [s[i]];
  }

  /** The whole sequence as a prefix. */
  lemma DistinctPrefixAll(s: seq<string>)
    ensures Distinct(s[..|s|]) == Distinct(s)
  {
    assert s[..|s|] == s;
  }

  /** Splitting the head off a concatenation whose first part is not empty. */
  lemma HeadOfAppend<T>(a: seq<T>, b: seq<T>)
    requires |a| > 0
    ensures (a + b)[0] == a[0] && (a + b)[1..] == a[1..] + b
  {
  }

  /** The position of the first occurrence of `x` in `s`. */
  function FirstIndex(s: seq<string>, x: string): (i: nat)
    requires x in s
    ensures i < |s| && s[i] == x
    ensures forall k :: 0 <= k < i ==> s[k] != x
  {
    if s[0] == x then 0 else 1 + FirstIndex(s[1..], x)
  }

  /** Appending to a sequence does not move the first occurrence of a line
      that was already there. */
  lemma FirstIndexAppend(s: seq<string>, t: seq<string>, x: string)
    requires x in s
    ensures x in s + t
    ensures FirstIndex(s + t, x) == FirstIndex(s, x)
  {
    var i := FirstIndex(s, x);
    var j := FirstIndex(s + t, x);
    assert (s + t)[i] == x;
  }

  /** The lines of `s` that are not the empty string, in order. */
  function NonEmpty(s: seq<string>): (r: seq<string>)
    ensures AllNonEmpty(r)
    ensures |r| <= |s|
    ensures forall x :: x in r <==> x in s && x != ""
    ensures Distinct(r) == NonEmptySet(s)
    decreases |s|
  {
    if |s| == 0 then []
    else
      var init := NonEmpty(s[..|s| - 1]);
      var last := s[|s| - 1];
      assert s == s[..|s| - 1] + [last];
      assert NonEmptySet(s) == NonEmptySet(s[..|s| - 1]) + (if last == "" then {} else {last});
      if last == "" then init else init + [last]
  }

  /** Filtering keeps every non-empty line as many times as it occurs and
      drops every empty one. */
  lemma {:induction false} NonEmptyCounts(s: seq<string>)
    ensures multiset(NonEmpty(s)) == multiset(s)["" := 0]
    decreases |s|
  {
    if |s| > 0 {
      var last := s[|s| - 1];
      assert s == s[..|s| - 1] + [last];
      assert multiset(s) == multiset(s[..|s| - 1]) + multiset{last};
      NonEmptyCounts(s[..|s| - 1]);
    }
  }

  /** The non-empty lines of a single line. */
  lemma NonEmptyOne(x: string)
    ensures NonEmpty([x]) == if x == "" then [] else [x]
  {
    assert [x][..0] == [];
  }

  /** Filtering works line by line: it keeps order and repetitions, and
      distributes over concatenation. */
  lemma {:induction false} NonEmptyAppend(s: seq<string>, t: seq<string>)
    ensures NonEmpty(s + t) == NonEmpty(s) + NonEmpty(t)
    decreases |t|
  {
    if |t| > 0 {
      var t' := t[..|t| - 1];
      assert (s + t)[..|s + t| - 1] == s + t';
      assert (s + t)[|s + t| - 1] == t[|t| - 1];
      NonEmptyAppend(s, t');
    } else {
      assert s + t == s;
    }
  }

  /** A sequence without duplicates has as many distinct lines as entries. */
  lemma {:induction false} NoDupsCardinality(s: seq<string>)
    requires NoDups(s)
    ensures |Distinct(s)| == |s|
    decreases |s|
  {
    if |s| > 0 {
      var init := s[..|s| - 1];
      var last := s[|s| - 1];
      assert s == init + [last];
      assert NoDups(init);
      NoDupsCardinality(init);
      assert last !in init;
      assert Distinct(s) == Distinct(init) + {last};
    }
  }

  /** Appending lines that are all non-empty adds exactly those lines to the
      non-empty set. */
  lemma NonEmptySetAppend(s: seq<string>, t: seq<string>)
    requires AllNonEmpty(t)
    ensures NonEmptySet(s + t) == NonEmptySet(s) + Distinct(t)
  {
    forall x | x in NonEmptySet(s) + Distinct(t)
      ensures x in NonEmptySet(s + t)
    {
      if x in t {
        var k :| 0 <= k < |t| && t[k] == x;
        assert (s + t)[|s| + k] == x;
      } else {
        var k :| 0 <= k < |s| && s[k] == x;
        assert (s + t)[k] == x;
      }
    }
  }
}

=== FILE: records.dfy ===
/** How one transcript entry becomes one line of the raw log: JavaScript-style
    trimming, the speaker-label duration strip done by a regular expression,
    and the two extraction shapes (text only, or speaker and text). */
module Records {
  import opened Wrappers
  import opened Lines

  /** The characters JavaScript's `\s` class and `String.prototype.trim`
      treat as white space: the WhiteSpace and LineTerminator productions of
      ECMAScript. */
  predicate IsSpace(c: char)
  {
    || c == '\t' || c == '\n' || c == '\U{000B}' || c == '\U{000C}' || c == '\r'
    || c == ' ' || c == '\U{00A0}' || c == '\U{1680}'
    || ('\U{2000}' <= c <= '\U{200A}')
    || c == '\U{2028}' || c == '\U{2029}' || c == '\U{202F}' || c == '\U{205F}'
    || c == '\U{3000}' || c == '\U{FEFF}'
  }

  /** The characters a JavaScript `.` does not match. */
  predicate IsLineTerminator(c: char)
  {
    c == '\n' || c == '\r' || c == '\U{2028}' || c == '\U{2029}'
  }

  /** JavaScript's `\d` (without the unicode flag): ASCII digits only. */
  predicate IsDigit(c: char)
  {
    '0' <= c <= '9'
  }

  // ---------------------------------------------------------------------
  // The duration strip: the label is matched against the regular expression
  // \s+\d+\s*(時間|分間?|秒間?).*$ and the leftmost match, which runs to the
  // end of the label, is replaced by nothing.

  /** The duration units the regular expression accepts, as literal strings. */
  const Units: seq<string> := ["時間", "分", "分間", "秒", "秒間"]

  predicate AllSpace(s: string, a: int, b: int)
    requires 0 <= a <= b <= |s|
  {
    forall i :: a <= i < b ==> IsSpace(s[i])
  }

  predicate AllDigits(s: string, a: int, b: int)
    requires 0 <= a <= b <= |s|
  {
    forall i :: a <= i < b ==> IsDigit(s[i])
  }

  predicate NoLineBreakFrom(s: string, a: int)
    requires 0 <= a <= |s|
  {
    forall i :: a <= i < |s| ==> !IsLineTerminator(s[i])
  }

  /** One way the regular expression can match `s` from position `p`: white
      space on [p, k), digits on [k, m), white space on [m, n), unit `u` at
      n, and no line terminator from the end of the unit to the end of `s`. */
  predicate Decomposition(s: string, p: int, k: int, m: int, n: int, u: string)
  {
    && 0 <= p < k < m <= n && n + |u| <= |s|
    && u in Units
    && AllSpace(s, p, k) && AllDigits(s, k, m) && AllSpace(s, m, n)
    && s[n..n + |u|] == u
    && NoLineBreakFrom(s, n + |u|)
  }

  /** The regular expression matches `s` starting at position `p`, under the
      backtracking semantics: some decomposition exists. */
  ghost predicate PatternAt(s: string, p: int)
  {
    exists k, m, n, u :: Decomposition(s, p, k, m, n, u)
  }

  /** The first position at or after `i` that is not white space. */
  function SkipSpaces(s: string, i: nat): (j: nat)
    requires i <= |s|
    ensures i <= j <= |s| && AllSpace(s, i, j)
    ensures j < |s| ==> !IsSpace(s[j])
    decreases |s| - i
  {
    if i < |s| && IsSpace(s[i]) then SkipSpaces(s, i + 1) else i
  }

  /** The first position at or after `i` that is not a digit. */
  function SkipDigits(s: string, i: nat): (j: nat)
    requires i <= |s|
    ensures i <= j <= |s| && AllDigits(s, i, j)
    ensures j < |s| ==> !IsDigit(s[j])
    decreases |s| - i
  {
    if i < |s| && IsDigit(s[i]) then SkipDigits(s, i + 1) else i
  }

  /** The position just past the last non-space character of s[a..b], or
      `a` when there is none. */
  function TrimEndIndex(s: string, a: nat, b: nat): (e: nat)
    requires a <= b <= |s|
    ensures a <= e <= b && AllSpace(s, e, b)
    ensures e > a ==> !IsSpace(s[e - 1])
    decreases b
  {
    if b > a && IsSpace(s[b - 1]) then TrimEndIndex(s, a, b - 1) else b
  }

  /** JavaScript's `trim`: the infix of `s` between its leading and its
      trailing white space. */
  function Trim(s: string): (r: string)
    ensures |r| <= |s|
    ensures r == [] || (!IsSpace(r[0]) && !IsSpace(r[|r| - 1]))
    ensures r == [] <==> AllSpace(s, 0, |s|)
    ensures exists a, e :: 0 <= a <= e <= |s| && r == s[a..e] && AllSpace(s, 0, a) && AllSpace(s, e, |s|)
  {
    var a := SkipSpaces(s, 0);
    var e := TrimEndIndex(s, a, |s|);
    s[a..e]
  }

  /** A string with no white space at either end is its own trim. */
  lemma TrimFixed(s: string)
    requires s == [] || (!IsSpace(s[0]) && !IsSpace(s[|s| - 1]))
    ensures Trim(s) == s
  {
    assert SkipSpaces(s, 0) == 0;
    assert |s| > 0 ==> TrimEndIndex(s, 0, |s|) == |s|;
  }

  /** Trim is idempotent. */
  lemma TrimIdempotent(s: string)
    ensures Trim(Trim(s)) == Trim(s)
  {
    TrimFixed(Trim(s));
  }

  /** The end of the shortest unit at position `n`, or `n` when none is
      there. */
  function UnitEnd(s: string, n: nat): (e: nat)
    requires n <= |s|
    ensures n <= e <= |s|
  {
    if n + 1 < |s| && s[n] == '時' && s[n + 1] == '間' then n + 2
    else if n < |s| && (s[n] == '分' || s[n] == '秒') then n + 1
    else n
  }

  /** The deterministic matcher: since white space, digits and the first
      letter of a unit are pairwise distinct, each repetition must take its
      longest run, so one greedy pass decides the match. */
  predicate MatchAt(s: string, p: nat)
  {
    p < |s| &&
    var k := SkipSpaces(s, p);
    k > p &&
    var m := SkipDigits(s, k);
    m > k &&
    var n := SkipSpaces(s, m);
    var e := UnitEnd(s, n);
    e > n && NoLineBreakFrom(s, e)
  }

  /** A maximal run of white space is the one SkipSpaces finds. */
  lemma SkipSpacesUnique(s: string, i: nat, j: nat)
    requires i <= j <= |s| && AllSpace(s, i, j) && (j < |s| ==> !IsSpace(s[j]))
    ensures SkipSpaces(s, i) == j
  {
  }

  /** A maximal run of digits is the one SkipDigits finds. */
  lemma SkipDigitsUnique(s: string, i: nat, j: nat)
    requires i <= j <= |s| && AllDigits(s, i, j) && (j < |s| ==> !IsDigit(s[j]))
    ensures SkipDigits(s, i) == j
  {
  }

  /** Every greedy match is a match of the regular expression. */
  lemma MatchAtSound(s: string, p: nat)
    requires MatchAt(s, p)
    ensures PatternAt(s, p)
  {
    var k := SkipSpaces(s, p);
    var m := SkipDigits(s, k);
    var n := SkipSpaces(s, m);
    var u := if s[n] == '時' then "時間" else if s[n] == '分' then "分" else "秒";
    assert s[n..n + |u|] == u;
    assert Decomposition(s, p, k, m, n, u);
  }

  /** Every match of the regular expression is found by the greedy pass. */
  lemma MatchAtComplete(s: string, p: nat, k: int, m: int, n: int, u: string)
    requires Decomposition(s, p, k, m, n, u)
    ensures MatchAt(s, p)
  {
    assert s[n] == u[0];
    SkipSpacesUnique(s, p, k);
    SkipDigitsUnique(s, k, m);
    SkipSpacesUnique(s, m, n);
    var e := UnitEnd(s, n);
    if u == "時間" {
      assert s[n + 1] == u[1];
      assert e == n + 2;
    } else {
      assert e == n + 1;
    }
  }

  /** The greedy matcher agrees with the backtracking semantics of the
      regular expression. */
  lemma MatchAtIsPattern(s: string, p: nat)
    ensures MatchAt(s, p) <==> PatternAt(s, p)
  {
    if MatchAt(s, p) {
      MatchAtSound(s, p);
    }
    if PatternAt(s, p) {
      var k, m, n, u :| Decomposition(s, p, k, m, n, u);
      MatchAtComplete(s, p, k, m, n, u);
    }
  }

  /** Nothing matches at or past the end of the string. */
  lemma NoMatchPastEnd(s: string)
    ensures forall q: nat :: q >= |s| ==> !MatchAt(s, q)
  {
  }

  /** The leftmost position at or after `i` where the pattern matches. */
  function FirstMatch(s: string, i: nat): (r: Option<nat>)
    ensures r.Some? ==> i <= r.value < |s| && MatchAt(s, r.value)
    ensures r.Some? ==> forall q :: i <= q < r.value ==> !MatchAt(s, q)
    ensures r.None? ==> forall q :: i <= q ==> !MatchAt(s, q)
    decreases |s| - i
  {
    if i >= |s| then
      NoMatchPastEnd(s);
      None
    else if MatchAt(s, i) then Some(i)
    else FirstMatch(s, i + 1)
  }

  /** The speaker label with a trailing duration annotation removed: the
      raw label is trimmed, the leftmost match of the pattern and all that
      follows it is cut off, and the rest is trimmed again. */
  function SpeakerName(raw: string): string
  {
    var trimmed := Trim(raw);
    var replaced := (match FirstMatch(trimmed, 0)
      case None => trimmed
      case Some(p) => trimmed[..p]);
    Trim(replaced)
  }

  /** A label on which the pattern matches nowhere is only trimmed. */
  lemma SpeakerNameWithoutDuration(raw: string)
    requires forall q :: 0 <= q ==> !PatternAt(Trim(raw), q)
    ensures SpeakerName(raw) == Trim(raw)
  {
    var trimmed := Trim(raw);
    var f := FirstMatch(trimmed, 0);
    if f.Some? {
      MatchAtIsPattern(trimmed, f.value);
    }
    TrimIdempotent(raw);
  }

  /** When the pattern matches the trimmed label at `p` and nowhere before,
      the speaker is the trimmed text before `p`. */
  lemma SpeakerNameCutsLeftmostDuration(raw: string, p: nat)
    requires PatternAt(Trim(raw), p)
    requires forall q :: 0 <= q < p ==> !PatternAt(Trim(raw), q)
    ensures p < |Trim(raw)| && SpeakerName(raw) == Trim(Trim(raw)[..p])
  {
    var trimmed := Trim(raw);
    MatchAtIsPattern(trimmed, p);
    var f := FirstMatch(trimmed, 0);
    assert f.Some?;
    MatchAtIsPattern(trimmed, f.value);
  }

  /** The pattern cannot start on a character that is not white space. */
  lemma NoMatchOnNonSpace(s: string, p: nat)
    requires p < |s| && !IsSpace(s[p])
    ensures !MatchAt(s, p)
  {
    SkipSpacesUnique(s, p, p);
  }

  /** A match with no match before it is the one FirstMatch finds. */
  lemma FirstMatchIs(s: string, p: nat)
    requires MatchAt(s, p)
    requires forall q :: 0 <= q < p ==> !MatchAt(s, q)
    ensures FirstMatch(s, 0) == Some(p)
  {
  }

  /** The speaker is the trimmed text before the first match. */
  lemma SpeakerNameAtFirstMatch(raw: string, p: nat)
    requires FirstMatch(Trim(raw), 0) == Some(p)
    ensures SpeakerName(raw) == Trim(Trim(raw)[..p])
  {
  }

  /** "Jane Doe 1時間30分間45秒間" names the speaker "Jane Doe". */
  lemma SpeakerNameExampleHours()
    ensures SpeakerName("Jane Doe 1時間30分間45秒間") == "Jane Doe"
  {
    HoursTrimmed();
    HoursFirstMatch();
    HoursPrefix();
    SpeakerNameAtFirstMatch("Jane Doe 1時間30分間45秒間", 8);
  }

  lemma HoursTrimmed()
    ensures Trim("Jane Doe 1時間30分間45秒間") == "Jane Doe 1時間30分間45秒間"
  {
    TrimFixed("Jane Doe 1時間30分間45秒間");
  }

  lemma HoursFirstMatch()
    ensures FirstMatch("Jane Doe 1時間30分間45秒間", 0) == Some(8)
  {
    HoursNoEarlyMatch();
    HoursMatch();
    FirstMatchIs("Jane Doe 1時間30分間45秒間", 8);
  }

  lemma HoursPrefix()
    ensures Trim("Jane Doe 1時間30分間45秒間"[..8]) == "Jane Doe"
  {
    assert "Jane Doe 1時間30分間45秒間"[..8] == "Jane Doe";
    TrimFixed("Jane Doe");
  }

  lemma HoursNoEarlyMatch()
    ensures forall q :: 0 <= q < 8 ==> !MatchAt("Jane Doe 1時間30分間45秒間", q)
  {
    var s := "Jane Doe 1時間30分間45秒間";
    forall q | q in {0, 1, 2, 3, 5, 6, 7}
      ensures !MatchAt(s, q)
    {
      NoMatchOnNonSpace(s, q);
    }
    SkipSpacesUnique(s, 4, 5);
    SkipDigitsUnique(s, 5, 5);
  }

  lemma HoursMatch()
    ensures MatchAt("Jane Doe 1時間30分間45秒間", 8)
  {
    var s := "Jane Doe 1時間30分間45秒間";
    SkipSpacesUnique(s, 8, 9);
    SkipDigitsUnique(s, 9, 10);
    SkipSpacesUnique(s, 10, 10);
    assert UnitEnd(s, 10) == 12;
  }

  /** "Bob 5秒" names the speaker "Bob". */
  lemma SpeakerNameExampleSeconds()
    ensures SpeakerName("Bob 5秒") == "Bob"
  {
    TrimFixed("Bob 5秒");
    SecondsFirstMatch();
    SecondsPrefix();
    SpeakerNameAtFirstMatch("Bob 5秒", 3);
  }

  lemma SecondsFirstMatch()
    ensures FirstMatch("Bob 5秒", 0) == Some(3)
  {
    SecondsNoEarlyMatch();
    SecondsMatch();
    FirstMatchIs("Bob 5秒", 3);
  }

  lemma SecondsNoEarlyMatch()
    ensures forall q :: 0 <= q < 3 ==> !MatchAt("Bob 5秒", q)
  {
    NoMatchOnNonSpace("Bob 5秒", 0);
    NoMatchOnNonSpace("Bob 5秒", 1);
    NoMatchOnNonSpace("Bob 5秒", 2);
  }

  lemma SecondsMatch()
    ensures MatchAt("Bob 5秒", 3)
  {
    var s := "Bob 5秒";
    SkipSpacesUnique(s, 3, 4);
    SkipDigitsUnique(s, 4, 5);
    SkipSpacesUnique(s, 5, 5);
  }

  lemma SecondsPrefix()
    ensures Trim("Bob 5秒"[..3]) == "Bob"
  {
    assert "Bob 5秒"[..3] == "Bob";
    TrimFixed("Bob");
  }

  // ---------------------------------------------------------------------
  // Records and the two extraction shapes.

  /** One transcript entry as the page shows it: the raw speaker label and
      the raw body text, each "" when its element is missing. */
  datatype Entry = Entry(speakerRaw: string, textRaw: string)

  /** One harvested unit of text, optionally attributed to a speaker. */
  datatype Record = Record(speaker: Option<string>, text: string)

  /** The record an entry yields: none when its trimmed text is empty,
      otherwise the trimmed text with the cleaned speaker when that is not
      empty. */
  function ToRecord(e: Entry): (r: Option<Record>)
    ensures r.None? <==> AllSpace(e.textRaw, 0, |e.textRaw|)
    ensures r.Some? ==> r.value.text != [] && r.value.text == Trim(e.textRaw)
    ensures r.Some? ==> (r.value.speaker.Some? <==> SpeakerName(e.speakerRaw) != [])
    ensures r.Some? && r.value.speaker.Some? ==> r.value.speaker.value == SpeakerName(e.speakerRaw)
  {
    var speaker := SpeakerName(e.speakerRaw);
    var text := Trim(e.textRaw);
    if text == [] then None
    else Some(Record(if speaker != [] then Some(speaker) else None, text))
  }

  /** The raw-log line of a record: the text alone, or the speaker, a tab
      and the text. */
  function Serialize(r: Record): string
  {
    match r.speaker
    case Some(sp) => sp + "\t" + r.text
    case None => r.text
  }

  /** The inverse of Serialize: a line splits at its first tab into speaker
      and text; a line without a tab is text alone. */
  function ParseLine(line: string): (r: Record)
  {
    if '\t' in line then
      var i := TabIndex(line);
      Record(Some(line[..i]), line[i + 1..])
    else Record(None, line)
  }

  function TabIndex(line: string): (i: nat)
    requires '\t' in line
    ensures i < |line| && line[i] == '\t' && '\t' !in line[..i]
  {
    if line[0] == '\t' then 0
    else
      assert line == [line[0]] + line[1..];
      1 + TabIndex(line[1..])
  }

  /** The line format is unambiguous when the speaker holds no tab (and a
      speakerless text holds none): parsing a serialized record gives the
      record back. */
  lemma ParseSerialize(r: Record)
    requires r.speaker.Some? ==> r.speaker.value != [] && '\t' !in r.speaker.value
    requires r.speaker.None? ==> '\t' !in r.text
    ensures ParseLine(Serialize(r)) == r
  {
    var line := Serialize(r);
    if r.speaker.Some? {
      var sp := r.speaker.value;
      assert line[|sp|] == '\t';
      var i := TabIndex(line);
      assert line[..i] == sp;
      assert line[i + 1..] == r.text;
    }
  }

  /** The entry's line in the raw log, if it has one. */
  function EntryLine(e: Entry): (r: Option<string>)
    ensures r.Some? ==> r.value != []
    ensures r.Some? <==> ToRecord(e).Some?
    ensures r.Some? ==> r.value == Serialize(ToRecord(e).value)
  {
    match ToRecord(e)
    case None => None
    case Some(rec) => Some(Serialize(rec))
  }

  /** A text-only node's line: its trimmed text, if that is not empty. */
  function NodeLine(n: string): (r: Option<string>)
    ensures r.Some? ==> r.value != []
  {
    var t := Trim(n);
    if t == [] then None else Some(t)
  }

  /** The lines `f` produces for the elements of `xs`, in order, skipping
      the elements it produces none for. */
  function Collect<T>(xs: seq<T>, f: T -> Option<string>): (r: seq<string>)
    ensures |r| <= |xs|
    ensures forall i :: 0 <= i < |r| ==> exists j :: 0 <= j < |xs| && f(xs[j]) == Some(r[i])
    ensures forall j :: 0 <= j < |xs| && f(xs[j]).Some? ==> f(xs[j]).value in r
    decreases |xs|
  {
    if |xs| == 0 then []
    else
      var init := Collect(xs[..|xs| - 1], f);
      var last := xs[|xs| - 1];
      assert forall j :: 0 <= j < |xs| - 1 ==> xs[..|xs| - 1][j] == xs[j];
      match f(last)
      case None => init
      case Some(line) => init + [line]
  }

  /** Collect works element by element: it distributes over concatenation. */
  lemma {:induction false} CollectAppend<T>(xs: seq<T>, ys: seq<T>, f: T -> Option<string>)
    ensures Collect(xs + ys, f) == Collect(xs, f) + Collect(ys, f)
    decreases |ys|
  {
    if |ys| > 0 {
      var ys' := ys[..|ys| - 1];
      assert (xs + ys)[..|xs + ys| - 1] == xs + ys';
      CollectAppend(xs, ys', f);
    } else {
      assert xs + ys == xs;
    }
  }

  /** Collect of one element is that element's line, if any. */
  lemma CollectOne<T>(x: T, f: T -> Option<string>)
    ensures Collect([x], f) == (match f(x) case None => [] case Some(line) => [line])
  {
    assert [x][..0] == [];
  }

  /** A snapshot of what the page renders at one moment, in both shapes:
      the nodes the line selector finds, and the entries the entry selector
      finds. */
  datatype Page = Page(lineNodes: seq<string>, entries: seq<Entry>)

  /** The lines of the text-only mode: each node's trimmed text, in
      document order, leaving out the blank ones. */
  function NodeLines(ns: seq<string>): (r: seq<string>)
    ensures AllNonEmpty(r) && |r| <= |ns|
    ensures forall i :: 0 <= i < |r| ==> exists j :: 0 <= j < |ns| && r[i] == Trim(ns[j])
    ensures forall j :: 0 <= j < |ns| && Trim(ns[j]) != [] ==> Trim(ns[j]) in r
  {
    var r := Collect(ns, NodeLine);
    assert forall j :: 0 <= j < |ns| && Trim(ns[j]) != [] ==> NodeLine(ns[j]).Some?;
    r
  }

  /** The lines of the default mode: each entry's serialized record, in
      document order, leaving out the entries without one. */
  function EntryLines(es: seq<Entry>): (r: seq<string>)
    ensures AllNonEmpty(r) && |r| <= |es|
    ensures forall i :: 0 <= i < |r| ==>
      exists j :: 0 <= j < |es| && ToRecord(es[j]).Some? && r[i] == Serialize(ToRecord(es[j]).value)
    ensures forall j :: 0 <= j < |es| && ToRecord(es[j]).Some? ==> Serialize(ToRecord(es[j]).value) in r
  {
    var r := Collect(es, EntryLine);
    EntryLinesSound(es);
    EntryLinesComplete(es);
    r
  }

  /** Each collected entry line is the serialized record of an entry. */
  lemma EntryLinesSound(es: seq<Entry>)
    ensures forall i :: 0 <= i < |Collect(es, EntryLine)| ==>
      exists j :: 0 <= j < |es| && ToRecord(es[j]).Some?
        && Collect(es, EntryLine)[i] == Serialize(ToRecord(es[j]).value)
  {
    var r := Collect(es, EntryLine);
    forall i | 0 <= i < |r|
      ensures exists j :: 0 <= j < |es| && ToRecord(es[j]).Some? && r[i] == Serialize(ToRecord(es[j]).value)
    {
      var j :| 0 <= j < |es| && EntryLine(es[j]) == Some(r[i]);
      assert ToRecord(es[j]).Some? && r[i] == Serialize(ToRecord(es[j]).value);
    }
  }

  /** Each entry with a record has its line collected. */
  lemma EntryLinesComplete(es: seq<Entry>)
    ensures forall j :: 0 <= j < |es| && ToRecord(es[j]).Some? ==>
      Serialize(ToRecord(es[j]).value) in Collect(es, EntryLine)
  {
    var r := Collect(es, EntryLine);
    forall j | 0 <= j < |es| && ToRecord(es[j]).Some?
      ensures Serialize(ToRecord(es[j]).value) in r
    {
      assert EntryLine(es[j]).Some?;
    }
  }


  /** The batch of lines one extraction yields: text-only mode reads the
      line nodes, the default mode the speaker-attributed entries. No line
      in a batch is empty. */
  function ExtractLines(textOnly: bool, page: Page): (r: seq<string>)
    ensures AllNonEmpty(r)
    ensures textOnly ==> |r| <= |page.lineNodes|
    ensures !textOnly ==> |r| <= |page.entries|
    ensures textOnly ==> forall i :: 0 <= i < |r| ==>
      exists j :: 0 <= j < |page.lineNodes| && r[i] == Trim(page.lineNodes[j])
    ensures !textOnly ==> forall i :: 0 <= i < |r| ==>
      exists j :: 0 <= j < |page.entries| && ToRecord(page.entries[j]).Some?
        && r[i] == Serialize(ToRecord(page.entries[j]).value)
    ensures textOnly ==> forall j :: 0 <= j < |page.lineNodes| && Trim(page.lineNodes[j]) != [] ==>
      Trim(page.lineNodes[j]) in r
    ensures !textOnly ==> forall j :: 0 <= j < |page.entries| && ToRecord(page.entries[j]).Some? ==>
      Serialize(ToRecord(page.entries[j]).value) in r
  {
    if textOnly then NodeLines(page.lineNodes)
    else EntryLines(page.entries)
  }

  /** Two pages side by side: the nodes and entries of the first come
      before those of the second in document order. */
  function Concat(p: Page, q: Page): Page
  {
    Page(p.lineNodes + q.lineNodes, p.entries + q.entries)
  }

  /** Extraction keeps document order and repetitions: the batch of two
      pages side by side is the first page's batch followed by the
      second's. */
  lemma ExtractLinesAppend(textOnly: bool, p: Page, q: Page)
    ensures ExtractLines(textOnly, Concat(p, q)) == ExtractLines(textOnly, p) + ExtractLines(textOnly, q)
  {
    CollectAppend(p.lineNodes, q.lineNodes, NodeLine);
    CollectAppend(p.entries, q.entries, EntryLine);
    assert NodeLines(p.lineNodes + q.lineNodes) == NodeLines(p.lineNodes) + NodeLines(q.lineNodes);
  }

  /** A single node contributes its trimmed text unless that is blank; a
      single entry contributes its serialized record unless its text is
      blank. */
  lemma ExtractLinesOne(n: string, e: Entry)
    ensures ExtractLines(true, Page([n], [])) == if Trim(n) == [] then [] else [Trim(n)]
    ensures ExtractLines(false, Page([], [e])) ==
      match ToRecord(e) case None => [] case Some(rec) => [Serialize(rec)]
  {
    CollectOne(n, NodeLine);
    CollectOne(e, EntryLine);
  }
}

=== FILE: state.dfy ===
/** The persisted run state: its schema, the terminal statuses, the process
    exit codes, and what a saved state gives back when it is loaded again. */
module State {
  import opened Wrappers

  /** An opaque clock reading (an ISO timestamp in the program). */
  type Stamp = string

  datatype Status = Running | Completed | Interrupted | Failed

  /** Status moves only forward: from running to a terminal status, and a
      terminal status never changes. */
  predicate Advances(a: Status, b: Status)
  {
    a == Running || a == b
  }

  /** A history of saved states in which status only moves forward. */
  predicate Forward(saved: seq<RunState>)
  {
    forall i, j :: 0 <= i < j < |saved| ==> Advances(saved[i].status, saved[j].status)
  }

  datatype ErrorCode = LoopOperationFailed | RetryExceeded | ContainerNotFound | UnexpectedError

  /** The recorded error: its code and the consecutive-failure count at the
      time (the message and the clock reading are not modelled). */
  datatype LastError = LastError(code: ErrorCode, retryCount: nat)

  datatype Target = Target(url: Option<string>, containerSelector: string, lineSelector: string)

  datatype Progress = Progress(
    loopCount: nat,
    scrollTop: int,
    totalLinesSeen: nat,
    uniqueLinesSeen: nat,
    idleScrollCount: nat,
    lastNewLineAt: Option<Stamp>)

  /** The runtime parameters recorded in the state for reference. */
  datatype Runtime = Runtime(
    maxIdleScrolls: int,
    scrollStep: int,
    scrollIntervalMs: int,
    maxRetries: int,
    retryWaitMs: int,
    dedupeMode: string)

  datatype RunState = RunState(
    version: nat,
    runId: string,
    status: Status,
    target: Target,
    progress: Progress,
    runtime: Runtime,
    startedAt: Stamp,
    lastError: Option<LastError>)

  const SchemaVersion: nat := 1

  datatype ExitCode =
    | ExitOk
    | ExitConfigError
    | ExitSelectorError
    | ExitRetryExceeded
    | ExitWriteError
    | ExitUnexpected

  /** The numeric process exit code of each condition. */
  function Code(e: ExitCode): (n: int)
    ensures n == 0 <==> e == ExitOk
    ensures 0 <= n <= 50 && n % 10 == 0
  {
    match e
    case ExitOk => 0
    case ExitConfigError => 10
    case ExitSelectorError => 20
    case ExitRetryExceeded => 30
    case ExitWriteError => 40
    case ExitUnexpected => 50
  }

  /** Distinct conditions exit with distinct codes. */
  lemma CodeInjective(a: ExitCode, b: ExitCode)
    requires Code(a) == Code(b)
    ensures a == b
  {
  }

  /** The target part of a loaded state file; a None field is a key that is
      missing or holds null. */
  datatype SavedTarget = SavedTarget(
    url: Option<string>,
    containerSelector: Option<string>,
    lineSelector: Option<string>)

  /** A loaded state file, as far as the run reads it; a None field is a key
      that is missing (or, for the target, not an object). */
  datatype StateDoc = StateDoc(
    runId: Option<string>,
    target: Option<SavedTarget>,
    loopCount: Option<nat>,
    idleScrollCount: Option<nat>,
    startedAt: Option<Stamp>)

  /** The state file on disk: absent, present but not valid JSON, or
      loaded. */
  datatype StateFile = Missing | Unreadable | Present(doc: StateDoc)

  /** What loading a saved state gives back: every field the run reads is
      present and holds the saved value. */
  function Snapshot(s: RunState): (d: StateDoc)
    ensures d.runId == Some(s.runId) && d.startedAt == Some(s.startedAt)
    ensures d.loopCount == Some(s.progress.loopCount)
    ensures d.idleScrollCount == Some(s.progress.idleScrollCount)
    ensures d.target.Some? && d.target.value.url == s.target.url
  {
    StateDoc(
      Some(s.runId),
      Some(SavedTarget(s.target.url, Some(s.target.containerSelector), Some(s.target.lineSelector))),
      Some(s.progress.loopCount),
      Some(s.progress.idleScrollCount),
      Some(s.startedAt))
  }
}

=== FILE: wrappers.dfy ===
/** An optional value and a value-or-error result, used throughout the
    model. */
module Wrappers {

  datatype Option<+T> = None | Some(value: T)

  datatype Result<+R, +E> = Ok(value: R) | Err(error: E)
}
